=== FILE: README.md ===
# Brain-training games: a verified model of the game logic

This project models the game logic of a small brain-training web app:

- **Maze puzzle.** A blank grid is carved into a perfect maze by an iterative depth-first "recursive backtracker" with an explicit stack. The player moves with the arrow keys through open walls. Reaching the goal stops the clock and awards points by difficulty: 10×10 and 2 points on Easy, 20×20 and 5 points on Hard. The elapsed time is shown as `mm:ss`.
- **Memory matrix.** A square grid flashes a pattern of distinct cells, and the player clicks them back. Each cleared level grows the grid every three levels and the pattern every two levels. A wrong cell ends the game.
- **Aptitude quiz and IQ test.** A list of fetched questions is answered one at a time. An answer is locked in once given, and the session ends after the last question. The aptitude quiz awards 5 global points at each correct answer. The IQ test awards 10 points per correct answer in one go when it finishes.
- **Course content.** A course's text is split into lines. Each line is shown as a heading (`###`), a numbered item (`1.`), a bullet (`*`) or a paragraph.

The global score (`addScore`) is modelled as an event log. Every transition returns a `Transition(state, awards)`, and the score a run adds is the sum of its awards. Randomness is an input:
- maze carving reads a sequence of choices;
- pattern generation reads a sequence of draws.

The stated properties hold for every such sequence.

Modules:
- `Optional`: the option type.
- `Scoring`: transitions with their awards, and the award sum kept by the global score.
- `Text`: the decimal-digit character class.
- `MazeGrid`: cells, walls, the grid, wall removal, walks through open walls.
- `MazeGen`: the carving loop and its spanning-tree proof.
- `MazeSession`: a maze session, key handling, the win check, the clock.
- `TimeFormat`: the `mm:ss` display.
- `MemoryMatrix`: the memory-matrix game.
- `Quiz`: the logic the two quizzes share.
- `Aptitude`: the aptitude quiz.
- `IqTest`: the IQ test.
- `CourseContent`: the line classifier.

## Model

| member | source | states |
|---|---|---|
| `MazeGrid.NewGrid` | pages/PuzzleGame.tsx:78-90 | The blank grid has `h` rows of `w` cells. Cell `(x,y)` holds its own coordinates, has all four walls up and is unvisited. |
| `MazeGrid.RemoveWallBetween` | pages/PuzzleGame.tsx:121-129 | Knocking down a wall opens it on both sides: the current cell's wall `d` and the neighbour's opposite wall. Exactly those two walls open, and no coordinate or visited flag changes. |
| `MazeGrid.MarkVisited` | pages/PuzzleGame.tsx:130 | The entered cell becomes visited. Every wall, every coordinate and every other cell's flag stays as it was. |
| `MazeGrid.RemoveWallKeepsSymmetry` | pages/PuzzleGame.tsx:121-129 | If walls agree on both sides of every edge before a carving, they still agree after it. |
| `MazeGrid.RemoveWallKeepsBoundary` | pages/PuzzleGame.tsx:109-129 | Carving toward an in-bounds neighbour never opens a wall on the outer edge. |
| `MazeGrid.WalkSurvivesOpening` | pages/PuzzleGame.tsx:121-131 | A walk through open walls is still a walk, to the same cell, after more walls come down. |
| `MazeGen.FreeAmong` | pages/PuzzleGame.tsx:109-115 | The neighbour scan keeps a direction exactly when it is listed and leads to an in-bounds, unvisited cell. |
| `MazeGen.Candidates` | pages/PuzzleGame.tsx:102-115 | At most four candidates. A direction is a candidate exactly when its neighbour is in bounds and not visited. |
| `MazeGen.Choose` | pages/PuzzleGame.tsx:117-118 | The random pick always indexes one of the candidates. |
| `MazeGen.Generate` | pages/PuzzleGame.tsx:93-135 | Carving ends with every cell visited and exactly `w*h-1` carvings. Each carving enters a new cell, never the start, from a cell entered earlier. Walls agree on both sides and none on the edge is open. The open walls are exactly the carvings, and every cell can be reached from `(0,0)`: a spanning tree. |
| `MazeGen.PushKeepsInvariants` | pages/PuzzleGame.tsx:117-131 | A carving step keeps every loop invariant: visited flags, the stack, the tree of carvings and a walk to every entered cell. |
| `MazeGen.PopKeepsInvariants` | pages/PuzzleGame.tsx:132-134 | Popping a cell with no unvisited neighbour keeps every loop invariant. |
| `MazeGen.CarvingComplete` | pages/PuzzleGame.tsx:98-135 | When the stack is empty, every cell is visited and reachable, and the carvings number `w*h-1`. |
| `MazeGen.EveryCellReached` | pages/PuzzleGame.tsx:98-115 | A set that holds the start and every in-bounds neighbour of its members holds every cell. |
| `MazeGen.CellCount` | pages/PuzzleGame.tsx:79-81 | A `w` by `h` grid has `w*h` cells. |
| `MazeGen.TreeIsSymmetricAndClosed` | pages/PuzzleGame.tsx:121-129 | When the open walls are exactly the carvings, walls agree on both sides and the outer edge is closed. |
| `MazeSession.Initial` | pages/PuzzleGame.tsx:51-59 | Before its first maze, the screen is Easy, 15 by 15, not won, with the clock stopped at zero. Keys, the win check and ticks change nothing. |
| `MazeSession.KeyFor` | pages/PuzzleGame.tsx:164-167 | Each direction has an arrow key that moves that way. |
| `MazeSession.NewSession` | pages/PuzzleGame.tsx:62-75 | A new maze keeps the difficulty and is 10×10 on Easy and 20×20 on Hard. The player is at `(0,0)` and the goal at `(w-1,h-1)`. It is not won, the clock runs from zero, the grid is a symmetric maze with a closed edge, and every cell is reachable. |
| `MazeSession.SelectDifficulty` | pages/PuzzleGame.tsx:203-214 | Choosing the current difficulty changes nothing. Choosing the other one starts a fresh maze of its size, with the player on `(0,0)`, the goal on the far corner and the clock running from zero. Its grid is a symmetric maze with a closed edge in which every cell is reachable. |
| `MazeSession.KeyPressMoves` | pages/PuzzleGame.tsx:153-168 | A press changes only the player's position. It moves exactly one cell through an open wall, stays on the grid, and does nothing on a won game, for another key or against a wall. |
| `MazeSession.ApplyKeepsConsistent` | pages/PuzzleGame.tsx:138-185 | Every key or tick keeps the session consistent. A game not yet won is won by a press exactly when the key handler puts the player on the goal. Points are awarded exactly when the game goes from running to won, and they are the difficulty's points. A press leaves the player where the key handler put it and does not move the clock. A tick adds one second while the game runs and changes nothing else. |
| `MazeSession.AwardedAtMostOnce` | pages/PuzzleGame.tsx:175-185 | Over any run the difficulty's points are awarded at most once, and exactly when the run wins. A won game ignores all input. |
| `MazeSession.FollowingAPathWins` | pages/PuzzleGame.tsx:153-185 | Pressing the keys of an open walk that ends on the goal wins the game. |
| `MazeSession.NewMazeIsSolvable` | pages/PuzzleGame.tsx:62-185 | Every freshly carved maze has a key sequence that wins it and awards the points once. |
| `TimeFormat.Decimal` | pages/PuzzleGame.tsx:190 | `toString` of a count gives a non-empty string of digits with no leading zero. |
| `TimeFormat.PadTwo` | pages/PuzzleGame.tsx:190 | `padStart(2, '0')` gives exactly two characters for shorter strings: `'0'`s followed by the string. Longer strings are left alone. |
| `TimeFormat.FormatTimeRoundTrip` | pages/PuzzleGame.tsx:187-191 | Reading the minutes and seconds back from `mm:ss` gives the original number of seconds. |
| `TimeFormat.FormatTimeWidth` | pages/PuzzleGame.tsx:187-191 | Below 100 minutes the display is exactly five characters with the colon in the middle. |
| `TimeFormat.ValueOfDecimal` | pages/PuzzleGame.tsx:190 | The digits `toString` writes denote the number. |
| `MemoryMatrix.Initial` | pages/CognitiveGame.tsx:9-14 | The first screen is a consistent, idle game at level 1 with no score, and it ignores clicks. |
| `MemoryMatrix.Collect` | pages/CognitiveGame.tsx:25-30 | The pattern loop gives exactly `count` distinct indices, all below `size*size`. It keeps the cells already collected as a prefix, and every cell it adds is the index of one of the draws. When it gives no pattern, the cells collected were still short of `count`. |
| `MemoryMatrix.GeneratePattern` | pages/CognitiveGame.tsx:16-33 | A level's grid side is `3+floor((level-1)/3)` and its pattern holds `3+floor(level/2)` distinct cells of that grid. The pattern is shown with an empty selection, and level and score are unchanged. |
| `MemoryMatrix.TilesFitGrid` | pages/CognitiveGame.tsx:18-23 | At every level at least three tiles are drawn, and they always fit on the grid. |
| `MemoryMatrix.PatternAlwaysPossible` | pages/CognitiveGame.tsx:25-28 | At every level some sequence of draws ends the pattern loop. |
| `MemoryMatrix.StartGame` | pages/CognitiveGame.tsx:46-52 | Starting resets the level to 1 and the session score to 0. It shows a level-1 pattern, and the game is consistent. |
| `MemoryMatrix.StartGameAsWritten` | pages/CognitiveGame.tsx:46-52 | The restart as coded resets level and score, but builds the grid and pattern of the level the player had reached. |
| `MemoryMatrix.StaleLevelOnRestart` | pages/CognitiveGame.tsx:16-52 | Restarting from a game at level 4 shows level 1 with the 4×4 grid and 5 tiles of level 4, a state that breaks the game's invariant. |
| `MemoryMatrix.ClickKeepsConsistent` | pages/CognitiveGame.tsx:54-74 | Clicks are ignored unless playing and for cells already selected. Otherwise the cell is appended to the selection, the pattern and grid size stay as they were, and a cell outside the pattern ends the game. A pattern cell keeps the game playing, unless it is the last missing one: that cell, and only that cell, clears the level. Clearing adds ten points per tile, awards 5 global points once and raises the level; every other click leaves level and score alone. The selection stays duplicate-free, and only its last cell may lie outside the pattern. |
| `MemoryMatrix.ShowingAndNextLevelKeepConsistent` | pages/CognitiveGame.tsx:35-44 | The reveal timeout and the next-level effect keep the game consistent. The timeout turns a showing pattern into play and changes nothing else. In `Idle` above level 1 the effect shows a fresh pattern of the current level's size and count, with an empty selection. Otherwise it does nothing. It never changes the level or the session score. |
| `Quiz.Load` | pages/AptitudeGame.tsx:24-34 | Loading resets the index, score and selection, clears the ended flag and keeps the fetched questions. |
| `Quiz.Answer` | pages/AptitudeGame.tsx:38-46 | A second click after an answer is locked in changes nothing. The first click locks the option in and adds 1 to the score exactly when it is the correct one. |
| `Quiz.Advance` | pages/AptitudeGame.tsx:49-57 | Before the last question "next" moves to the following question with nothing selected. At the last question it ends the session. The score is unchanged either way. |
| `Quiz.StepsKeepConsistent` | pages/AptitudeGame.tsx:38-57 | Answering and advancing keep the index within the questions and the score within the number of answers given. |
| `Aptitude.ApplyKeepsConsistent` | pages/AptitudeGame.tsx:24-57 | Every control the page offers keeps the session consistent, and the explanation shows exactly while an answer is locked in. A pick locks the option in and awards 5 points exactly when that option is correct, which is also exactly when the score rises by 1. A wrong pick changes neither. "Next" awards nothing. It moves to the next question with the selection cleared and the explanation hidden, or ends the session at the last one. A reload zeroes the score. A control the page does not offer changes nothing. |
| `Aptitude.RunAwardsFivePerPoint` | pages/AptitudeGame.tsx:38-47 | Over any run without a reload the global points awarded are five times the session points gained. |
| `Aptitude.SessionPointsMatchScreen` | pages/AptitudeGame.tsx:86-89 | After a load, the points actually awarded equal the `score * 5` on the final screen, and the score never exceeds the number of questions. |
| `IqTest.ApplyKeepsConsistent` | pages/IQTest.tsx:37-63 | A pick locks the answer in and awards nothing. "Next" keeps the score. It moves to the next question with the selection cleared, or ends the test exactly on the last question. Only that finishing step awards points: 10 per correct answer given before it. An ended test ignores everything but a reload, and a control the page does not offer changes nothing. |
| `IqTest.PointsOnlyAtFinish` | pages/IQTest.tsx:47-63 | Over any run without a reload, nothing is awarded before the test ends, and exactly `[10*score]` once it has. |
| `IqTest.StaysEnded` | pages/IQTest.tsx:83-117 | The finished screen offers only a retake, so an ended test stays as it is. |
| `Scoring.SumAppend` | ScoreContext.tsx:20-22 | The points added by two runs in turn are the sum of what each adds. |
| `CourseContent.Split` | pages/Courses.tsx:50 | `split('\n')` gives at least one line, and no line contains a newline. |
| `CourseContent.JoinSplit` | pages/Courses.tsx:50 | Joining the split lines with newlines gives the content back. |
| `CourseContent.SplitJoin` | pages/Courses.tsx:50 | Splitting newline-free lines joined with newlines gives the same lines. |
| `CourseContent.RemoveFirst` | pages/Courses.tsx:51-53 | `replace` with a string pattern shortens the line by the pattern's length or not at all. What it removes is stated by `CourseContent.RemoveFirstAt` and `CourseContent.RemoveAbsent`. |
| `CourseContent.RemoveFirstAt` | pages/Courses.tsx:51-53 | `replace` with a string pattern removes exactly the first occurrence of the pattern and keeps everything around it. |
| `CourseContent.RemoveAbsent` | pages/Courses.tsx:51-53 | `replace` leaves a line that does not contain the pattern unchanged. |
| `CourseContent.RemoveLeading` | pages/Courses.tsx:51-53 | When the line starts with the pattern, `replace` removes exactly that leading marker. |
| `CourseContent.LeadingDigits` | pages/Courses.tsx:52 | Counts the leading run of digits that `^\d+` matches. |
| `CourseContent.StripFirstOrdinal` | pages/Courses.tsx:52 | A line starting with `1.` loses exactly those two characters to `/^\d+\./`. |
| `CourseContent.Render` | pages/Courses.tsx:50-55 | One block per line of the content. Each block is well formed, and its marker plus text is its line, so by `CourseContent.UnclassifyClassify` it is exactly the line's classification. |
| `CourseContent.ClassifyUnclassify` | pages/Courses.tsx:50-54 | Each line's block, marker plus text, gives the line back, so nothing is lost or shown twice. A paragraph never starts with a marker. |
| `CourseContent.UnclassifyClassify` | pages/Courses.tsx:50-54 | A block is what its own line classifies to if and only if it is well formed, so the precedence `###`, `1.`, `*`, paragraph is exact. |
| `CourseContent.OnlyOneOpensAList` | pages/Courses.tsx:52 | A line starting with a digit is a numbered item if and only if it starts with `1.`. Lines starting `2.` or `10.` are paragraphs with their text unchanged. |
| `CourseContent.RenderIsFaithful` | pages/Courses.tsx:50-55 | The lines the displayed blocks stand for, joined again, are exactly the content. |

## Left out

- Rendering, styling and React's hook plumbing are not modelled. Only the state changes the handlers and effects make are. An effect is modelled as running right after the change that triggers it.
- Timers are not modelled as time. The one-second interval is a `Tick` event that counts while the interval is live. The memory game's reveal delay (`1500 + level*100` ms) and the 100 ms start delay are steps with no duration.
- `Math.random` is an input sequence. Once the maze choices run out, the first candidate is taken. A pattern is only generated from draws that complete it (`MemoryMatrix.PatternAlwaysPossible` shows such draws exist).
- Question fetching (`services/geminiService.ts`) is a network call to a language model. A load receives the fetched list, and a failed fetch is the empty list. The loading spinner state in between is not modelled.
- Question text, options and explanations are only displayed, so a question is reduced to the index of its correct option.
- The IQ estimate (pages/IQTest.tsx:59) is floating-point arithmetic with random variance and is not modelled. The finish event records only the ended flag and the point award.
- The global score's `localStorage` persistence and its `parseInt` on load (ScoreContext.tsx:11-18) are not modelled. The score is the sum of the awards.
- The mount-time load of each quiz is not an event. A session starts from `Load(questions)`.
- The `keydown` listener's `preventDefault` is not modelled because it has no effect on state.
- Routing, navigation, the home and games pages, the riddle and chat features, `constants.ts` and `types.ts` are not part of this model.
- MemoryMatrix.Collect: says each added cell is the index of some draw, not that cells come in the order they were first drawn. The game only ever asks whether a cell is in the pattern, so the order has no effect on play.
- Quiz.StepsKeepConsistent: bounds the score by the number of answers given rather than equating it with the number of correct answers, because the pages keep no record of past answers to compare against.
- MemoryMatrix.ShowingAndNextLevelKeepConsistent: covers the reveal timeout only while the pattern is showing. A timeout left over from an earlier pattern that fires in another phase is not covered.

## Findings

| source | as written | input that shows it | evidently intended | confidence | as-written member | corrected member |
|---|---|---|---|---|---|---|
| pages/CognitiveGame.tsx:46-52 | `startGame` sets the level to 1, then calls, after a delay, the `generatePattern` callback captured in the render where the button was clicked. That callback still holds the old level, so the first pattern of the new game is built for the level the player had reached. | A game over at level 4, then "start": the screen shows level 1, but the grid is 4×4 with 5 tiles instead of 3×3 with 3. Clearing it also earns 50 session points instead of 30. | A restart shows the level-1 grid and pattern, and the session score tracks the levels actually cleared. | not executed | `MemoryMatrix.StartGameAsWritten` | `MemoryMatrix.StartGame` |

=== FILE: aptitude.dfy ===
/** The aptitude quiz: five fetched questions, an explanation shown once an
    answer is locked in, and 5 global points for every correct answer, awarded
    at the moment it is given. */
module Aptitude {
  import opened Scoring
  import Quiz

  /** Global points for one correct answer. */
  const PointsPerCorrect := 5

  datatype Aptitude = Aptitude(quiz: Quiz.Quiz, explanation: bool)

  /** What the player can do: a finished load, a click on an option, or the
      "next" button. */
  datatype Event = Loaded(questions: seq<Quiz.Question>) | Pick(option: int) | Next

  /** `loadQuestions`: a fresh session over the fetched questions with the
      explanation hidden. */
  function Load(questions: seq<Quiz.Question>): Aptitude
  {
    Aptitude(Quiz.Load(questions), false)
  }

  /** `handleOptionClick`: locks the answer in, shows the explanation and
      awards the points for a correct answer; a click after an answer is
      locked in changes nothing. */
  function OptionClick(a: Aptitude, option: int): Transition<Aptitude>
    requires a.quiz.index < |a.quiz.questions|
  {
    if a.quiz.selected.Some? then Transition(a, [])
    else
      Transition(Aptitude(Quiz.Answer(a.quiz, option), true),
                 if Quiz.IsCorrect(a.quiz, option) then [PointsPerCorrect] else [])
  }

  /** `nextQuestion`: the next question with the explanation hidden, or the
      end of the session after the last one. */
  function NextQuestion(a: Aptitude): Aptitude
  {
    var advancing := a.quiz.index < |a.quiz.questions| - 1;
    Aptitude(Quiz.Advance(a.quiz), if advancing then false else a.explanation)
  }

  /** Which events the page offers: "retry" with no questions and "play
      again" at the end reload; option buttons while the question is
      unanswered; "next" once it is answered. */
  predicate Enabled(a: Aptitude, e: Event)
  {
    match e
    case Loaded(_) => a.quiz.questions == [] || a.quiz.ended
    case Pick(_) => !a.quiz.ended && a.quiz.index < |a.quiz.questions| && a.quiz.selected.None?
    case Next => !a.quiz.ended && a.quiz.index < |a.quiz.questions| && a.quiz.selected.Some?
  }

  /** One event; a disabled control does nothing. */
  function Apply(a: Aptitude, e: Event): Transition<Aptitude>
  {
    if !Enabled(a, e) then Transition(a, [])
    else match e
      case Loaded(qs) => Transition(Load(qs), [])
      case Pick(option) => OptionClick(a, option)
      case Next => Transition(NextQuestion(a), [])
  }

  /** A sequence of events, with the global points each one awarded. */
  function Run(a: Aptitude, events: seq<Event>): Transition<Aptitude>
    decreases |events|
  {
    if |events| == 0 then Transition(a, [])
    else
      var t := Apply(a, events[0]);
      var rest := Run(t.state, events[1..]);
      Transition(rest.state, t.awards + rest.awards)
  }

  /** The quiz is consistent and the explanation is shown exactly while an
      answer is locked in. */
  ghost predicate Consistent(a: Aptitude)
  {
    Quiz.Consistent(a.quiz) && (a.explanation <==> a.quiz.selected.Some?)
  }

  /** Every event keeps the session consistent and awards 5 points exactly
      when it raises the score, which it raises by at most 1 unless it is a
      reload.  A pick locks the option in and shows the explanation, and it
      awards the points exactly when the option is the correct one; "next"
      moves on to the next question with the explanation hidden, or ends the
      session at the last one, and awards nothing; a control the page does
      not offer changes nothing. */
  lemma ApplyKeepsConsistent(a: Aptitude, e: Event)
    requires Consistent(a)
    ensures var t := Apply(a, e);
      && Consistent(t.state)
      && (!e.Loaded? ==> a.quiz.score <= t.state.quiz.score <= a.quiz.score + 1)
      && (!e.Loaded? ==> Sum(t.awards) == PointsPerCorrect * (t.state.quiz.score - a.quiz.score))
      && (e.Loaded? && Enabled(a, e) ==> t.state.quiz.score == 0 && t.awards == [])
      && (e.Pick? && Enabled(a, e) ==>
            && t.state.quiz == Quiz.Answer(a.quiz, e.option) && t.state.explanation
            && t.awards == (if Quiz.IsCorrect(a.quiz, e.option) then [PointsPerCorrect] else []))
      && (e.Next? ==> t.awards == [])
      && (e.Next? && Enabled(a, e) ==>
            && t.state.quiz == Quiz.Advance(a.quiz)
            && (a.quiz.index + 1 < |a.quiz.questions| ==> !t.state.explanation))
      && (!Enabled(a, e) ==> t == Transition(a, []))
  {
    if Enabled(a, e) {
      match e
      case Loaded(qs) =>
      case Pick(option) =>
        Quiz.StepsKeepConsistent(a.quiz, option);
      case Next =>
        Quiz.StepsKeepConsistent(a.quiz, 0);
    }
  }

  /** Over any run without a reload the global points awarded are 5 for each
      point the session score gained; in particular after a load the points
      awarded equal the `score * 5` shown on the final screen. */
  lemma {:induction false} RunAwardsFivePerPoint(a: Aptitude, events: seq<Event>)
    requires Consistent(a)
    requires forall i :: 0 <= i < |events| ==> !events[i].Loaded?
    ensures var t := Run(a, events);
      && Consistent(t.state)
      && t.state.quiz.score >= a.quiz.score
      && Sum(t.awards) == PointsPerCorrect * (t.state.quiz.score - a.quiz.score)
    decreases |events|
  {
    if |events| > 0 {
      var t := Apply(a, events[0]);
      ApplyKeepsConsistent(a, events[0]);
      RunAwardsFivePerPoint(t.state, events[1..]);
      SumAppend(t.awards, Run(t.state, events[1..]).awards);
    }
  }

  /** A fresh session followed by any run without a reload has awarded
      exactly the points its final screen reports, and the score never
      exceeds the number of questions. */
  lemma SessionPointsMatchScreen(questions: seq<Quiz.Question>, events: seq<Event>)
    requires forall i :: 0 <= i < |events| ==> !events[i].Loaded?
    ensures var t := Run(Load(questions), events);
      Sum(t.awards) == t.state.quiz.score * 5 && t.state.quiz.score <= |questions|
  {
    RunAwardsFivePerPoint(Load(questions), events);
    RunKeepsQuestions(Load(questions), events);
  }

  /** A run without a reload keeps the loaded questions. */
  lemma {:induction false} RunKeepsQuestions(a: Aptitude, events: seq<Event>)
    requires forall i :: 0 <= i < |events| ==> !events[i].Loaded?
    ensures Run(a, events).state.quiz.questions == a.quiz.questions
    decreases |events|
  {
    if |events| > 0 {
      RunKeepsQuestions(Apply(a, events[0]).state, events[1..]);
    }
  }
}

=== FILE: course_content.dfy ===
/** How a course module's text is laid out: the content is split into lines
    and every line is shown as a heading, a numbered item, a bullet item or a
    paragraph, decided by how it starts. */
module CourseContent {
  import opened Text

  /** One displayed line. */
  datatype Block = Heading(text: string) | Numbered(text: string) | Bullet(text: string) | Paragraph(text: string)

  predicate StartsWith(s: string, prefix: string)
  {
    |prefix| <= |s| && s[..|prefix|] == prefix
  }

  // ---------------------------------------------------------------------------
  // Splitting into lines

  /** `s.split(sep)`: the pieces between separators, in order; an empty
      string gives one empty piece and adjacent separators an empty piece
      between them. */
  function Split(s: string, sep: char): (r: seq<string>)
    ensures |r| >= 1
    ensures forall i :: 0 <= i < |r| ==> sep !in r[i]
    decreases |s|
  {
    if |s| == 0 then [""]
    else
      var rest := Split(s[1..], sep);
      if s[0] == sep then [""] + rest
      else [[s[0]] + rest[0]] + rest[1..]
  }

  /** The pieces glued back together with the separator between them. */
  function Join(pieces: seq<string>, sep: char): string
    requires |pieces| >= 1
    decreases |pieces|
  {
    if |pieces| == 1 then pieces[0] else pieces[0] + [sep] + Join(pieces[1..], sep)
  }

  /** Splitting loses nothing: joining the pieces gives the text back. */
  lemma {:induction false} JoinSplit(s: string, sep: char)
    ensures Join(Split(s, sep), sep) == s
    decreases |s|
  {
    if |s| > 0 {
      var rest := Split(s[1..], sep);
      JoinSplit(s[1..], sep);
      if s[0] == sep {
        assert ([""] + rest)[1..] == rest;
        assert s == [s[0]] + s[1..];
      } else {
        var r := [[s[0]] + rest[0]] + rest[1..];
        if |rest| == 1 {
          assert s == [s[0]] + rest[0];
        } else {
          assert r[1..] == rest[1..];
          assert Join(rest, sep) == rest[0] + [sep] + Join(rest[1..], sep);
          assert s == [s[0]] + s[1..];
        }
      }
    }
  }

  /** A text starting with a piece free of separators splits into that piece
      glued to the first piece of the rest. */
  lemma {:induction false} SplitPrefix(a: string, t: string, sep: char)
    requires sep !in a
    ensures Split(a + t, sep) == [a + Split(t, sep)[0]] + Split(t, sep)[1..]
    decreases |a|
  {
    if |a| > 0 {
      assert (a + t)[0] == a[0] && (a + t)[1..] == a[1..] + t;
      SplitPrefix(a[1..], t, sep);
      assert [a[0]] + (a[1..] + Split(t, sep)[0]) == a + Split(t, sep)[0];
    } else {
      var r := Split(t, sep);
      assert a + t == t && a + r[0] == r[0];
      assert [r[0]] + r[1..] == r;
    }
  }

  /** Joining pieces free of the separator and splitting again gives the
      same pieces. */
  lemma {:induction false} SplitJoin(pieces: seq<string>, sep: char)
    requires |pieces| >= 1
    requires forall i :: 0 <= i < |pieces| ==> sep !in pieces[i]
    ensures Split(Join(pieces, sep), sep) == pieces
    decreases |pieces|
  {
    if |pieces| == 1 {
      SplitPrefix(pieces[0], "", sep);
      assert pieces[0] + "" == pieces[0];
    } else {
      var u := Join(pieces[1..], sep);
      SplitJoin(pieces[1..], sep);
      assert pieces[0] + [sep] + u == pieces[0] + ([sep] + u);
      SplitPrefix(pieces[0], [sep] + u, sep);
      assert ([sep] + u)[0] == sep && ([sep] + u)[1..] == u;
      var r := Split([sep] + u, sep);
      assert r == [""] + pieces[1..];
      assert r[0] == "" && r[1..] == pieces[1..];
      assert pieces[0] + "" == pieces[0];
      assert pieces == [pieces[0]] + pieces[1..];
    }
  }

  // ---------------------------------------------------------------------------
  // Classifying a line

  /** `s.replace(pattern, '')` with a string pattern: the first occurrence of
      `pattern`, if any, removed. */
  function RemoveFirst(s: string, pattern: string): (r: string)
    ensures |r| == |s| || |r| == |s| - |pattern|
    decreases |s|
  {
    if StartsWith(s, pattern) then s[|pattern|..]
    else if |s| == 0 then s
    else [s[0]] + RemoveFirst(s[1..], pattern)
  }

  /** Number of digits the string starts with. */
  function LeadingDigits(s: string): (n: nat)
    ensures n <= |s|
    ensures forall i :: 0 <= i < n ==> IsDigit(s[i])
    ensures n < |s| ==> !IsDigit(s[n])
    decreases |s|
  {
    if |s| > 0 && IsDigit(s[0]) then 1 + LeadingDigits(s[1..]) else 0
  }

  /** `s.replace(/^\d+\./, '')`: one or more leading digits and the dot after
      them removed, when the string starts that way. */
  function StripOrdinal(s: string): (r: string)
    ensures |r| <= |s|
  {
    var n := LeadingDigits(s);
    if 0 < n < |s| && s[n] == '.' then s[n + 1..] else s
  }

  /** The display of one line: `###` makes a heading, `1.` a numbered item,
      `*` a bullet item, tried in that order; anything else is a paragraph. */
  function Classify(line: string): Block
  {
    if StartsWith(line, "###") then Heading(RemoveFirst(line, "###"))
    else if StartsWith(line, "1.") then Numbered(StripOrdinal(line))
    else if StartsWith(line, "*") then Bullet(RemoveFirst(line, "*"))
    else Paragraph(line)
  }

  /** The whole content as displayed, one block per line. */
  function Render(content: string): (r: seq<Block>)
    ensures |r| == |Split(content, '\n')|
    ensures forall i :: 0 <= i < |r| ==> WellFormed(r[i]) && Unclassify(r[i]) == Split(content, '\n')[i]
  {
    var lines := Split(content, '\n');
    ClassifyAll(lines);
    seq(|lines|, i requires 0 <= i < |lines| => Classify(lines[i]))
  }

  /** Every line's block is well formed and gives the line back. */
  lemma ClassifyAll(lines: seq<string>)
    ensures forall i :: 0 <= i < |lines| ==>
      WellFormed(Classify(lines[i])) && Unclassify(Classify(lines[i])) == lines[i]
  {
    forall i | 0 <= i < |lines|
      ensures WellFormed(Classify(lines[i])) && Unclassify(Classify(lines[i])) == lines[i]
    {
      ClassifyUnclassify(lines[i]);
    }
  }

  /** The line a block was read from: its marker followed by its text. */
  function Unclassify(b: Block): string
  {
    match b
    case Heading(t) => "###" + t
    case Numbered(t) => "1." + t
    case Bullet(t) => "*" + t
    case Paragraph(t) => t
  }

  /** A block some line can produce: a paragraph never starts with a marker. */
  predicate WellFormed(b: Block)
  {
    b.Paragraph? ==> !StartsWith(b.text, "###") && !StartsWith(b.text, "1.") && !StartsWith(b.text, "*")
  }

  // ---------------------------------------------------------------------------
  // Properties

  /** `pattern` occurs in `s` at `i` and nowhere before. */
  predicate FirstAt(s: string, pattern: string, i: nat)
  {
    i <= |s| && StartsWith(s[i..], pattern) && forall j :: 0 <= j < i ==> !StartsWith(s[j..], pattern)
  }

  /** `replace` removes the first occurrence of the pattern. */
  lemma {:induction false} RemoveFirstAt(s: string, pattern: string, i: nat)
    requires FirstAt(s, pattern, i)
    ensures i + |pattern| <= |s| && RemoveFirst(s, pattern) == s[..i] + s[i + |pattern|..]
    decreases i
  {
    assert s[0..] == s;
    if i == 0 {
      assert s[..0] + s[|pattern|..] == s[|pattern|..];
    } else {
      var t := s[1..];
      assert FirstAt(t, pattern, i - 1) by {
        assert t[i - 1..] == s[i..];
        forall j | 0 <= j < i - 1
          ensures !StartsWith(t[j..], pattern)
        {
          assert t[j..] == s[j + 1..];
        }
      }
      RemoveFirstAt(t, pattern, i - 1);
      assert s[..i] == [s[0]] + t[..i - 1];
      assert s[i + |pattern|..] == t[i - 1 + |pattern|..];
    }
  }

  /** `replace` leaves a string without the pattern unchanged. */
  lemma {:induction false} RemoveAbsent(s: string, pattern: string)
    requires forall j :: 0 <= j <= |s| ==> !StartsWith(s[j..], pattern)
    ensures RemoveFirst(s, pattern) == s
    decreases |s|
  {
    assert s[0..] == s;
    if |s| > 0 {
      var t := s[1..];
      forall j | 0 <= j <= |t|
        ensures !StartsWith(t[j..], pattern)
      {
        assert t[j..] == s[j + 1..];
      }
      RemoveAbsent(t, pattern);
      assert [s[0]] + t == s;
    }
  }

  /** Removing a pattern the string starts with drops exactly that prefix. */
  lemma RemoveLeading(s: string, pattern: string)
    requires StartsWith(s, pattern)
    ensures RemoveFirst(s, pattern) == s[|pattern|..]
  {
  }

  /** A line starting with `1.` loses exactly those two characters. */
  lemma StripFirstOrdinal(s: string)
    requires StartsWith(s, "1.")
    ensures StripOrdinal(s) == s[2..]
  {
    assert s[0] == '1' && s[1] == '.';
    assert LeadingDigits(s[1..]) == 0;
  }

  /** Classification is exact: every line is one block, whose marker and text
      give the line back, and no block it makes is ill-formed. */
  lemma ClassifyUnclassify(line: string)
    ensures Unclassify(Classify(line)) == line && WellFormed(Classify(line))
  {
    if StartsWith(line, "###") {
      RemoveLeading(line, "###");
      assert line == "###" + line[3..];
    } else if StartsWith(line, "1.") {
      StripFirstOrdinal(line);
      assert line == "1." + line[2..];
    } else if StartsWith(line, "*") {
      RemoveLeading(line, "*");
      assert line == "*" + line[1..];
    }
  }

  /** Conversely every well-formed block, and only those, is what its own
      line classifies to. */
  lemma UnclassifyClassify(b: Block)
    ensures Classify(Unclassify(b)) == b <==> WellFormed(b)
  {
    var line := Unclassify(b);
    match b
    case Heading(t) =>
      assert line[..3] == "###";
      RemoveLeading(line, "###");
      assert line[3..] == t;
    case Numbered(t) =>
      assert line[..2] == "1." && line[0] == '1';
      assert !StartsWith(line, "###");
      StripFirstOrdinal(line);
      assert line[2..] == t;
    case Bullet(t) =>
      assert line[..1] == "*" && line[0] == '*';
      assert !StartsWith(line, "###") && !StartsWith(line, "1.");
      RemoveLeading(line, "*");
      assert line[1..] == t;
    case Paragraph(t) =>
      ClassifyUnclassify(t);
  }

  /** Only `1.` opens a numbered item: a line opening with any other digit,
      such as `2.` or `10.`, is a paragraph. */
  lemma OnlyOneOpensAList(line: string)
    requires |line| > 0 && IsDigit(line[0])
    ensures Classify(line).Numbered? <==> StartsWith(line, "1.")
    ensures !StartsWith(line, "1.") ==> Classify(line) == Paragraph(line)
  {
    if !StartsWith(line, "1.") {
      assert !StartsWith(line, "###") by { assert line[0] != '#'; }
      assert !StartsWith(line, "*") by { assert line[0] != '*'; }
    } else {
      assert !StartsWith(line, "###") by { assert line[0] != '#'; }
    }
  }

  /** The rendered content loses nothing: the lines the blocks stand for,
      joined again, are the content. */
  lemma RenderIsFaithful(content: string)
    ensures var blocks := Render(content);
      && |blocks| >= 1
      && Join(seq(|blocks|, i requires 0 <= i < |blocks| => Unclassify(blocks[i])), '\n') == content
  {
    var lines := Split(content, '\n');
    var blocks := Render(content);
    assert seq(|blocks|, i requires 0 <= i < |blocks| => Unclassify(blocks[i])) == lines;
    JoinSplit(content, '\n');
  }
}

=== FILE: grid.dfy ===
/** The maze's grid: `height` rows of `width` cells, each cell carrying its
    own coordinates, four wall flags and the `visited` mark used while
    carving.  Cells are addressed as `rows[y][x]`. */
module MazeGrid {
  import opened Optional

  datatype Dir = Top | Right | Bottom | Left

  datatype Pos = Pos(x: int, y: int)

  /** A wall flag that is `true` blocks movement in that direction. */
  datatype Walls = Walls(top: bool, right: bool, bottom: bool, left: bool)
  {
    function Has(d: Dir): bool
    {
      match d
      case Top => top
      case Right => right
      case Bottom => bottom
      case Left => left
    }

    /** The same walls with the one facing `d` knocked down. */
    function Without(d: Dir): (r: Walls)
      ensures !r.Has(d)
      ensures forall e :: e != d ==> r.Has(e) == Has(e)
    {
      match d
      case Top => this.(top := false)
      case Right => this.(right := false)
      case Bottom => this.(bottom := false)
      case Left => this.(left := false)
    }
  }

  const AllWalls := Walls(true, true, true, true)

  const Origin := Pos(0, 0)

  datatype Cell = Cell(x: int, y: int, walls: Walls, visited: bool)

  function Opposite(d: Dir): Dir
  {
    match d
    case Top => Bottom
    case Right => Left
    case Bottom => Top
    case Left => Right
  }

  /** The neighbouring position in direction `d`; `Top` is toward row 0. */
  function Step(p: Pos, d: Dir): Pos
  {
    match d
    case Top => Pos(p.x, p.y - 1)
    case Right => Pos(p.x + 1, p.y)
    case Bottom => Pos(p.x, p.y + 1)
    case Left => Pos(p.x - 1, p.y)
  }

  lemma StepBack(p: Pos, d: Dir)
    ensures Step(Step(p, d), Opposite(d)) == p
    ensures Opposite(Opposite(d)) == d
    ensures Step(p, d) != p
  {
  }

  datatype Grid = Grid(width: nat, height: nat, rows: seq<seq<Cell>>)
  {
    /** `height` rows, each of `width` cells. */
    ghost predicate Valid()
    {
      |rows| == height && forall y :: 0 <= y < height ==> |rows[y]| == width
    }

    predicate Contains(p: Pos)
    {
      0 <= p.x < width && 0 <= p.y < height
    }

    function At(p: Pos): Cell
      requires Valid() && Contains(p)
    {
      rows[p.y][p.x]
    }

    /** The lookup `grid[y]?.[x]`, which yields nothing off the grid. */
    function Lookup(p: Pos): (r: Option<Cell>)
      ensures Valid() ==> (r.Some? <==> Contains(p))
      ensures Valid() && Contains(p) ==> r == Some(At(p))
    {
      if 0 <= p.y < |rows| && 0 <= p.x < |rows[p.y]| then Some(rows[p.y][p.x]) else None
    }

    /** Whether the cell at `p` has no wall toward `d`. */
    function Open(p: Pos, d: Dir): bool
      requires Valid() && Contains(p)
    {
      !At(p).walls.Has(d)
    }

    /** The grid with the cell at `p` replaced by `c`; no other cell changes. */
    function Set(p: Pos, c: Cell): (r: Grid)
      requires Valid() && Contains(p)
      ensures r.Valid() && r.width == width && r.height == height
      ensures r.At(p) == c
      ensures forall q :: Contains(q) && q != p ==> r.At(q) == At(q)
    {
      Grid(width, height, rows[p.y := rows[p.y][p.x := c]])
    }

    /** Where the moves in `path` lead from `p` when each one goes through an
        open wall to a cell of the grid; `None` if one of them is blocked. */
    function Walk(p: Pos, path: seq<Dir>): Option<Pos>
      requires Valid()
      decreases |path|
    {
      if |path| == 0 then Some(p)
      else if Contains(p) && Open(p, path[0]) && Contains(Step(p, path[0])) then
        Walk(Step(p, path[0]), path[1..])
      else None
    }
  }

  /** Some walk through open walls leads from the origin to `p`. */
  ghost predicate Reachable(g: Grid, p: Pos)
    requires g.Valid()
  {
    exists path :: g.Walk(Origin, path) == Some(p)
  }

  /** The cells of a `w` by `h` grid. */
  function AllCells(w: nat, h: nat): (s: set<Pos>)
    ensures forall p :: p in s <==> 0 <= p.x < w && 0 <= p.y < h
  {
    set x, y | 0 <= x < w && 0 <= y < h :: Pos(x, y)
  }

  /** The blank grid: `h` rows of `w` cells, every cell holding its own
      coordinates, all four walls up and not yet visited. */
  method NewGrid(w: nat, h: nat) returns (g: Grid)
    ensures g.Valid() && g.width == w && g.height == h
    ensures forall p :: g.Contains(p) ==> g.At(p) == Cell(p.x, p.y, AllWalls, false)
  {
    var rows: seq<seq<Cell>> := [];
    var y := 0;
    while y < h
      invariant 0 <= y <= h && |rows| == y
      invariant forall j :: 0 <= j < y ==> |rows[j]| == w
      invariant forall j, i :: 0 <= j < y && 0 <= i < w ==> rows[j][i] == Cell(i, j, AllWalls, false)
    {
      var row: seq<Cell> := [];
      var x := 0;
      while x < w
        invariant 0 <= x <= w && |row| == x
        invariant forall i :: 0 <= i < x ==> row[i] == Cell(i, y, AllWalls, false)
      {
        row := row + [Cell(x, y, AllWalls, false)];
        x := x + 1;
      }
      rows := rows + [row];
      y := y + 1;
    }
    g := Grid(w, h, rows);
  }

  /** Knocks down the wall between `p` and its neighbour in direction `d`:
      `p` loses its wall `d` and the neighbour loses the opposite wall.
      Nothing else changes. */
  function RemoveWallBetween(g: Grid, p: Pos, d: Dir): (r: Grid)
    requires g.Valid() && g.Contains(p) && g.Contains(Step(p, d))
    ensures r.Valid() && r.width == g.width && r.height == g.height
    ensures r.Open(p, d) && r.Open(Step(p, d), Opposite(d))
    ensures forall q :: g.Contains(q) ==>
      && r.At(q).x == g.At(q).x && r.At(q).y == g.At(q).y
      && r.At(q).visited == g.At(q).visited
    ensures forall q, e :: g.Contains(q) ==>
      (r.Open(q, e) <==> g.Open(q, e) || (q == p && e == d) || (q == Step(p, d) && e == Opposite(d)))
  {
    StepBack(p, d);
    var q := Step(p, d);
    var g1 := g.Set(p, g.At(p).(walls := g.At(p).walls.Without(d)));
    g1.Set(q, g1.At(q).(walls := g1.At(q).walls.Without(Opposite(d))))
  }

  /** Marks the cell at `p` visited, leaving walls and coordinates alone. */
  function MarkVisited(g: Grid, p: Pos): (r: Grid)
    requires g.Valid() && g.Contains(p)
    ensures r.Valid() && r.width == g.width && r.height == g.height
    ensures r.At(p).visited
    ensures forall q :: g.Contains(q) ==>
      && r.At(q).x == g.At(q).x && r.At(q).y == g.At(q).y && r.At(q).walls == g.At(q).walls
      && (q != p ==> r.At(q).visited == g.At(q).visited)
  {
    g.Set(p, g.At(p).(visited := true))
  }

  /** Walls between neighbours agree: a cell's wall toward a neighbour is down
      exactly when that neighbour's wall back toward it is down. */
  ghost predicate Symmetric(g: Grid)
    requires g.Valid()
  {
    forall p, d :: g.Contains(p) && g.Contains(Step(p, d)) ==>
      (g.Open(p, d) <==> g.Open(Step(p, d), Opposite(d)))
  }

  /** No wall on the outer edge is down: every open wall leads into the grid. */
  ghost predicate BoundaryClosed(g: Grid)
    requires g.Valid()
  {
    forall p, d :: g.Contains(p) && g.Open(p, d) ==> g.Contains(Step(p, d))
  }

  lemma {:induction false} RemoveWallKeepsSymmetry(g: Grid, p: Pos, d: Dir)
    requires g.Valid() && g.Contains(p) && g.Contains(Step(p, d))
    requires Symmetric(g)
    ensures Symmetric(RemoveWallBetween(g, p, d))
  {
    var r := RemoveWallBetween(g, p, d);
    forall q, e | r.Contains(q) && r.Contains(Step(q, e))
      ensures r.Open(q, e) <==> r.Open(Step(q, e), Opposite(e))
    {
      StepBack(q, e);
      StepBack(p, d);
    }
  }

  lemma {:induction false} RemoveWallKeepsBoundary(g: Grid, p: Pos, d: Dir)
    requires g.Valid() && g.Contains(p) && g.Contains(Step(p, d))
    requires BoundaryClosed(g)
    ensures BoundaryClosed(RemoveWallBetween(g, p, d))
  {
    StepBack(p, d);
  }

  /** Following one more open move extends a walk by one step. */
  lemma {:induction false} WalkExtend(g: Grid, p: Pos, path: seq<Dir>, q: Pos, d: Dir)
    requires g.Valid() && g.Walk(p, path) == Some(q)
    requires g.Contains(q) && g.Open(q, d) && g.Contains(Step(q, d))
    ensures g.Walk(p, path + [d]) == Some(Step(q, d))
    decreases |path|
  {
    if |path| == 0 {
      assert path + [d] == [d];
      assert [d][1..] == [];
    } else {
      assert (path + [d])[0] == path[0];
      assert (path + [d])[1..] == path[1..] + [d];
      WalkExtend(g, Step(p, path[0]), path[1..], q, d);
    }
  }

  /** A walk through a grid stays a walk once more walls are knocked down. */
  lemma {:induction false} WalkSurvivesOpening(g: Grid, r: Grid, p: Pos, path: seq<Dir>)
    requires g.Valid() && r.Valid() && r.width == g.width && r.height == g.height
    requires forall q, e :: g.Contains(q) && g.Open(q, e) ==> r.Open(q, e)
    requires g.Walk(p, path).Some?
    ensures r.Walk(p, path) == g.Walk(p, path)
    decreases |path|
  {
    if |path| > 0 {
      WalkSurvivesOpening(g, r, Step(p, path[0]), path[1..]);
    }
  }
}

=== FILE: iq_test.dfy ===
/** The IQ test: ten fetched questions answered without explanations; the
    global points, 10 for every correct answer, are awarded in one go when the
    test is finished.  The IQ estimate shown at the end is not modelled. */
module IqTest {
  import opened Scoring
  import Quiz

  /** Global points for one correct answer, awarded at the finish. */
  const PointsPerCorrect := 10

  /** What the player can do: a finished load, a click on an option, or the
      "next" button. */
  datatype Event = Loaded(questions: seq<Quiz.Question>) | Pick(option: int) | Next

  /** `loadQuestions`: a fresh test over the fetched questions. */
  function Load(questions: seq<Quiz.Question>): Quiz.Quiz
  {
    Quiz.Load(questions)
  }

  /** `handleOptionClick`: locks the answer in and counts a correct one; no
      points are awarded yet. */
  function OptionClick(q: Quiz.Quiz, option: int): Transition<Quiz.Quiz>
    requires q.index < |q.questions|
  {
    Transition(Quiz.Answer(q, option), [])
  }

  /** `finishTest`: ends the test and awards the points for every correct
      answer. */
  function Finish(q: Quiz.Quiz): Transition<Quiz.Quiz>
  {
    Transition(q.(ended := true), [q.score * PointsPerCorrect])
  }

  /** `nextQuestion`: the next question, or the finish after the last one. */
  function NextQuestion(q: Quiz.Quiz): Transition<Quiz.Quiz>
  {
    if q.index < |q.questions| - 1 then Transition(Quiz.Advance(q), [])
    else Finish(q)
  }

  /** Which events the page offers: reloading with no questions or at the
      end, option buttons while the question is unanswered, "next" once it is
      answered. */
  predicate Enabled(q: Quiz.Quiz, e: Event)
  {
    match e
    case Loaded(_) => q.questions == [] || q.ended
    case Pick(_) => !q.ended && q.index < |q.questions| && q.selected.None?
    case Next => !q.ended && q.index < |q.questions| && q.selected.Some?
  }

  /** One event; a disabled control does nothing. */
  function Apply(q: Quiz.Quiz, e: Event): Transition<Quiz.Quiz>
  {
    if !Enabled(q, e) then Transition(q, [])
    else match e
      case Loaded(qs) => Transition(Load(qs), [])
      case Pick(option) => OptionClick(q, option)
      case Next => NextQuestion(q)
  }

  /** A sequence of events, with the global points each one awarded. */
  function Run(q: Quiz.Quiz, events: seq<Event>): Transition<Quiz.Quiz>
    decreases |events|
  {
    if |events| == 0 then Transition(q, [])
    else
      var t := Apply(q, events[0]);
      var rest := Run(t.state, events[1..]);
      Transition(rest.state, t.awards + rest.awards)
  }

  /** Every event keeps the test consistent; only the event that ends the
      test awards points, and it awards 10 for every correct answer; once
      ended only a reload changes anything.  A pick locks the answer in and
      awards nothing; "next" moves on to the next question with nothing selected and
      keeps the score, and on the last question it
      ends the test with 10 points for every correct answer given before it;
      a control the page does not offer changes nothing. */
  lemma ApplyKeepsConsistent(q: Quiz.Quiz, e: Event)
    requires Quiz.Consistent(q)
    ensures var t := Apply(q, e);
      && Quiz.Consistent(t.state)
      && (t.awards != [] <==> !q.ended && t.state.ended && !e.Loaded?)
      && (t.awards != [] ==> t.awards == [PointsPerCorrect * t.state.score])
      && (q.ended && !e.Loaded? ==> t.state == q)
      && (!e.Loaded? ==> q.score <= t.state.score && q.questions == t.state.questions)
      && (e.Pick? && Enabled(q, e) ==> t.state == Quiz.Answer(q, e.option) && t.awards == [])
      && (e.Next? ==> t.state.score == q.score)
      && (e.Next? && Enabled(q, e) ==>
            && t.state == Quiz.Advance(q)
            && (t.state.ended <==> q.index + 1 == |q.questions|)
            && t.awards == (if q.index + 1 == |q.questions| then [PointsPerCorrect * q.score] else []))
      && (!Enabled(q, e) ==> t == Transition(q, []))
  {
    if Enabled(q, e) {
      match e
      case Loaded(qs) =>
      case Pick(option) =>
        Quiz.StepsKeepConsistent(q, option);
      case Next =>
        Quiz.StepsKeepConsistent(q, 0);
    }
  }

  /** Over a run without a reload from a test still in progress, no points
      are awarded until the test ends, and then exactly once: 10 for every
      correct answer of the finished test. */
  lemma {:induction false} PointsOnlyAtFinish(q: Quiz.Quiz, events: seq<Event>)
    requires Quiz.Consistent(q) && !q.ended
    requires forall i :: 0 <= i < |events| ==> !events[i].Loaded?
    ensures var t := Run(q, events);
      && Quiz.Consistent(t.state)
      && t.awards == (if t.state.ended then [PointsPerCorrect * t.state.score] else [])
    decreases |events|
  {
    if |events| > 0 {
      var t := Apply(q, events[0]);
      ApplyKeepsConsistent(q, events[0]);
      if t.state.ended {
        StaysEnded(t.state, events[1..]);
        assert Run(t.state, events[1..]) == Transition(t.state, []);
      } else {
        PointsOnlyAtFinish(t.state, events[1..]);
      }
    }
  }

  /** An ended test ignores everything but a reload. */
  lemma {:induction false} StaysEnded(q: Quiz.Quiz, events: seq<Event>)
    requires q.ended
    requires forall i :: 0 <= i < |events| ==> !events[i].Loaded?
    ensures Run(q, events) == Transition(q, [])
    decreases |events|
  {
    if |events| > 0 {
      assert Apply(q, events[0]) == Transition(q, []);
      StaysEnded(q, events[1..]);
    }
  }
}

=== FILE: maze_gen.dfy ===
/** Randomised depth-first carving (the "recursive backtracker"), run with an
    explicit stack over a blank grid.  The random choice among the candidate
    neighbours is an input: the k-th carving picks `choices[k] % n` among its
    `n` candidates, which ranges over every index `Math.floor(Math.random() * n)`
    can produce.  Every postcondition holds for every choice sequence. */
module MazeGen {
  import opened Optional
  import opened MazeGrid

  /** One carving: the wall between `from` and its neighbour in `dir` came down
      and that neighbour was entered for the first time. */
  datatype Edge = Edge(from: Pos, dir: Dir)
  {
    function To(): Pos
    {
      Step(from, dir)
    }
  }

  /** The neighbour of `p` in direction `d` lies on the grid and is unvisited. */
  predicate Free(g: Grid, p: Pos, d: Dir)
    requires g.Valid()
  {
    g.Contains(Step(p, d)) && !g.At(Step(p, d)).visited
  }

  /** The directions among `dirs`, in their order, that lead to free neighbours. */
  function FreeAmong(g: Grid, p: Pos, dirs: seq<Dir>): (ds: seq<Dir>)
    requires g.Valid()
    ensures |ds| <= |dirs|
    ensures forall d :: d in ds <==> d in dirs && Free(g, p, d)
  {
    if |dirs| == 0 then []
    else
      var rest := FreeAmong(g, p, dirs[1..]);
      assert forall d :: d in dirs <==> d == dirs[0] || d in dirs[1..];
      if Free(g, p, dirs[0]) then [dirs[0]] + rest else rest
  }

  /** The carving candidates of `p`: its unvisited neighbours on the grid,
      tried top, right, bottom, left. */
  function Candidates(g: Grid, p: Pos): (ds: seq<Dir>)
    requires g.Valid()
    ensures |ds| <= 4
    ensures forall d :: d in ds <==> Free(g, p, d)
  {
    FreeAmong(g, p, [Top, Right, Bottom, Left])
  }

  /** The index among `n` candidates taken by the `k`-th carving. */
  function Choose(choices: seq<nat>, k: nat, n: nat): (i: nat)
    requires n > 0
    ensures i < n
  {
    if k < |choices| then choices[k] % n else 0
  }

  // ---------------------------------------------------------------------------
  // Loop invariants of the carving loop

  /** Cells keep their coordinates, and the `visited` flags mark exactly `seen`. */
  ghost predicate Tracks(g: Grid, seen: set<Pos>)
    requires g.Valid()
  {
    && (forall p {:trigger g.Contains(p)} :: g.Contains(p) ==>
          g.At(p).x == p.x && g.At(p).y == p.y && (g.At(p).visited <==> p in seen))
    && (forall p :: p in seen ==> g.Contains(p))
  }

  /** Depth-first frontier: stacked cells are visited, and a visited cell that
      has left the stack has no unvisited neighbour. */
  ghost predicate Frontier(g: Grid, stack: seq<Pos>, seen: set<Pos>)
  {
    && (forall i :: 0 <= i < |stack| ==> stack[i] in seen)
    && (forall p, d :: p in seen && p !in stack && g.Contains(Step(p, d)) ==> Step(p, d) in seen)
  }

  /** A carving joins two visited cells of the grid through a wall that is down
      on both sides, and never enters the origin. */
  ghost predicate Joins(g: Grid, e: Edge, seen: set<Pos>)
    requires g.Valid()
  {
    && g.Contains(e.from) && g.Contains(e.To())
    && e.from in seen && e.To() in seen && e.To() != Origin
    && g.Open(e.from, e.dir) && g.Open(e.To(), Opposite(e.dir))
  }

  /** Every carving joins two visited cells through a wall down on both sides. */
  ghost predicate AllJoin(g: Grid, carved: seq<Edge>, seen: set<Pos>)
    requires g.Valid()
  {
    forall i :: 0 <= i < |carved| ==> Joins(g, carved[i], seen)
  }

  /** No two carvings enter the same cell. */
  ghost predicate EntersOnce(carved: seq<Edge>)
  {
    forall i, j :: 0 <= i < j < |carved| ==> carved[i].To() != carved[j].To()
  }

  /** `entry` names, for each visited cell other than the origin, the carving
      that entered it; each carving starts from the origin or from a cell an
      earlier carving entered. */
  ghost predicate Rooted(carved: seq<Edge>, seen: set<Pos>, entry: map<Pos, nat>)
  {
    && (forall p {:trigger entry[p]} {:trigger p in entry} :: p in seen && p != Origin ==>
          p in entry && entry[p] < |carved| && carved[entry[p]].To() == p)
    && (forall i {:trigger entry[carved[i].from]} :: 0 <= i < |carved| && carved[i].from != Origin ==>
          carved[i].from in entry && entry[carved[i].from] < i)
  }

  /** Each carving starts from the origin or from a cell an earlier carving
      entered, so the carvings hang every new cell onto the tree built so far. */
  ghost predicate Grows(carved: seq<Edge>)
  {
    forall i :: 0 <= i < |carved| ==>
      carved[i].from == Origin || exists j :: 0 <= j < i && carved[j].To() == carved[i].from
  }

  /** The walls that are down are exactly those the carvings knocked down. */
  ghost predicate OnlyCarvedOpen(g: Grid, carved: seq<Edge>)
    requires g.Valid()
  {
    forall p, d :: g.Contains(p) && g.Open(p, d) ==>
      Edge(p, d) in carved || Edge(Step(p, d), Opposite(d)) in carved
  }

  /** The carvings so far form a tree over `seen` rooted at the origin: each
      enters a distinct new cell from the origin or from a cell an earlier
      carving entered, and the walls that are down are exactly theirs. */
  ghost predicate Tree(g: Grid, carved: seq<Edge>, seen: set<Pos>, entry: map<Pos, nat>)
    requires g.Valid()
  {
    && Origin in seen
    && |seen| == |carved| + 1
    && AllJoin(g, carved, seen)
    && EntersOnce(carved)
    && Rooted(carved, seen, entry)
    && OnlyCarvedOpen(g, carved)
  }

  /** Every visited cell is reached from the origin by the recorded walk. */
  ghost predicate Reaches(g: Grid, seen: set<Pos>, paths: map<Pos, seq<Dir>>)
    requires g.Valid()
  {
    forall p :: p in seen ==> p in paths && g.Walk(Origin, paths[p]) == Some(p)
  }

  // ---------------------------------------------------------------------------
  // The carving loop

  /** Builds the maze of one session: a `w` by `h` grid whose open walls form a
      spanning tree of the cells, together with the carvings in the order the
      loop made them. */
  method Generate(w: nat, h: nat, choices: seq<nat>) returns (g: Grid, carved: seq<Edge>)
    requires w >= 1 && h >= 1
    ensures g.Valid() && g.width == w && g.height == h
    ensures forall p :: g.Contains(p) ==> g.At(p).x == p.x && g.At(p).y == p.y && g.At(p).visited
    ensures |carved| == w * h - 1
    ensures Symmetric(g) && BoundaryClosed(g)
    ensures forall i :: 0 <= i < |carved| ==>
      && g.Contains(carved[i].from) && g.Contains(carved[i].To()) && carved[i].To() != Origin
      && g.Open(carved[i].from, carved[i].dir) && g.Open(carved[i].To(), Opposite(carved[i].dir))
    ensures EntersOnce(carved) && Grows(carved) && OnlyCarvedOpen(g, carved)
    ensures forall p :: g.Contains(p) ==> Reachable(g, p)
  {
    g := NewGrid(w, h);
    g := MarkVisited(g, Origin);
    var stack := [Origin];
    ghost var seen := {Origin};
    carved := [];
    ghost var entry: map<Pos, nat> := map[];
    ghost var paths: map<Pos, seq<Dir>> := map[Origin := []];
    while |stack| > 0
      invariant g.Valid() && g.width == w && g.height == h
      invariant Tracks(g, seen)
      invariant Frontier(g, stack, seen)
      invariant Tree(g, carved, seen, entry)
      invariant Reaches(g, seen, paths)
      decreases AllCells(w, h) - seen, |stack|
    {
      var cur := stack[|stack| - 1];
      var cands := Candidates(g, cur);
      if |cands| > 0 {
        var d := cands[Choose(choices, |carved|, |cands|)];
        assert d in cands;
        var next := Step(cur, d);
        assert cur in seen;
        var r := MarkVisited(RemoveWallBetween(g, cur, d), next);
        CarvingStep(g, cur, d);
        PushKeepsInvariants(g, r, stack, seen, carved, entry, paths, d);
        g := r;
        stack := stack + [next];
        seen := seen + {next};
        entry := entry[next := |carved|];
        carved := carved + [Edge(cur, d)];
        paths := paths[next := paths[cur] + [d]];
      } else {
        PopKeepsInvariants(g, stack, seen);
        stack := stack[..|stack| - 1];
      }
    }
    CarvingComplete(g, carved, seen, entry, paths);
  }

  // ---------------------------------------------------------------------------
  // Proof of the loop

  /** How one carving step changes the grid: the cell entered becomes visited,
      the wall between it and `cur` comes down on both sides, and nothing else
      changes. */
  ghost predicate Carving(g: Grid, r: Grid, cur: Pos, d: Dir)
    requires g.Valid() && r.Valid()
  {
    && r.width == g.width && r.height == g.height
    && g.Contains(cur) && g.Contains(Step(cur, d))
    && (forall q :: g.Contains(q) ==>
          && r.At(q).x == g.At(q).x && r.At(q).y == g.At(q).y
          && (r.At(q).visited <==> g.At(q).visited || q == Step(cur, d)))
    && (forall q, e :: g.Contains(q) ==>
          (r.Open(q, e) <==> g.Open(q, e) || (q == cur && e == d) || (q == Step(cur, d) && e == Opposite(d))))
  }

  lemma CarvingStep(g: Grid, cur: Pos, d: Dir)
    requires g.Valid() && g.Contains(cur) && g.Contains(Step(cur, d))
    ensures var r := MarkVisited(RemoveWallBetween(g, cur, d), Step(cur, d));
            r.Valid() && Carving(g, r, cur, d)
  {
  }

  lemma PushKeepsInvariants(g: Grid, r: Grid, stack: seq<Pos>, seen: set<Pos>, carved: seq<Edge>,
                            entry: map<Pos, nat>, paths: map<Pos, seq<Dir>>, d: Dir)
    requires g.Valid() && Tracks(g, seen) && Frontier(g, stack, seen)
    requires Tree(g, carved, seen, entry) && Reaches(g, seen, paths)
    requires |stack| > 0 && Free(g, stack[|stack| - 1], d)
    requires r.Valid() && Carving(g, r, stack[|stack| - 1], d)
    ensures var cur := stack[|stack| - 1];
            var next := Step(cur, d);
            && next !in seen && next in AllCells(g.width, g.height)
            && Tracks(r, seen + {next})
            && Frontier(r, stack + [next], seen + {next})
            && Tree(r, carved + [Edge(cur, d)], seen + {next}, entry[next := |carved|])
            && Reaches(r, seen + {next}, paths[next := paths[cur] + [d]])
  {
    var cur := stack[|stack| - 1];
    var next := Step(cur, d);
    assert cur in seen;
    assert next !in seen;
    TrackAfterPush(g, r, seen, cur, d);
    FrontierAfterPush(r, stack, seen, next);
    assert |seen + {next}| == |seen| + 1;
    JoinAfterPush(g, r, carved, seen, cur, d);
    EntersOnceAfterPush(g, carved, seen, cur, d);
    RootedAfterPush(g, carved, seen, entry, cur, d);
    OnlyCarvedAfterPush(g, r, carved, cur, d);
    ReachesAfterPush(g, r, seen, paths, cur, d);
  }

  lemma TrackAfterPush(g: Grid, r: Grid, seen: set<Pos>, cur: Pos, d: Dir)
    requires g.Valid() && r.Valid() && Carving(g, r, cur, d)
    requires Tracks(g, seen)
    ensures Tracks(r, seen + {Step(cur, d)})
  {
    forall p | r.Contains(p)
      ensures r.At(p).x == p.x && r.At(p).y == p.y && (r.At(p).visited <==> p in seen + {Step(cur, d)})
    {
      assert g.Contains(p);
    }
  }

  lemma FrontierAfterPush(r: Grid, stack: seq<Pos>, seen: set<Pos>, next: Pos)
    requires Frontier(r, stack, seen)
    ensures Frontier(r, stack + [next], seen + {next})
  {
    forall p, e | p in seen + {next} && p !in stack + [next] && r.Contains(Step(p, e))
      ensures Step(p, e) in seen + {next}
    {
      assert p in seen && p !in stack;
    }
  }

  lemma JoinAfterPush(g: Grid, r: Grid, carved: seq<Edge>, seen: set<Pos>, cur: Pos, d: Dir)
    requires g.Valid() && r.Valid() && Carving(g, r, cur, d)
    requires AllJoin(g, carved, seen) && cur in seen && Origin in seen && Step(cur, d) !in seen
    ensures AllJoin(r, carved + [Edge(cur, d)], seen + {Step(cur, d)})
  {
    var carved' := carved + [Edge(cur, d)];
    var seen' := seen + {Step(cur, d)};
    forall i | 0 <= i < |carved'| ensures Joins(r, carved'[i], seen')
    {
      if i < |carved| {
        assert carved'[i] == carved[i];
        assert Joins(g, carved[i], seen);
      } else {
        StepBack(cur, d);
      }
    }
  }

  lemma EntersOnceAfterPush(g: Grid, carved: seq<Edge>, seen: set<Pos>, cur: Pos, d: Dir)
    requires g.Valid() && AllJoin(g, carved, seen) && EntersOnce(carved) && Step(cur, d) !in seen
    ensures EntersOnce(carved + [Edge(cur, d)])
  {
    var carved' := carved + [Edge(cur, d)];
    forall i, j | 0 <= i < j < |carved'| ensures carved'[i].To() != carved'[j].To()
    {
      assert carved'[i] == carved[i];
      if j < |carved| {
        assert carved'[j] == carved[j];
      } else {
        assert Joins(g, carved[i], seen);
      }
    }
  }

  lemma RootedAfterPush(g: Grid, carved: seq<Edge>, seen: set<Pos>, entry: map<Pos, nat>, cur: Pos, d: Dir)
    requires g.Valid() && AllJoin(g, carved, seen) && Rooted(carved, seen, entry)
    requires cur in seen && Step(cur, d) !in seen
    ensures Rooted(carved + [Edge(cur, d)], seen + {Step(cur, d)}, entry[Step(cur, d) := |carved|])
  {
    var carved' := carved + [Edge(cur, d)];
    var entry' := entry[Step(cur, d) := |carved|];
    forall i | 0 <= i < |carved'| && carved'[i].from != Origin
      ensures carved'[i].from in entry' && entry'[carved'[i].from] < i
    {
      if i < |carved| {
        assert carved'[i] == carved[i];
        assert Joins(g, carved[i], seen);
      }
    }
  }

  lemma OnlyCarvedAfterPush(g: Grid, r: Grid, carved: seq<Edge>, cur: Pos, d: Dir)
    requires g.Valid() && r.Valid() && Carving(g, r, cur, d)
    requires OnlyCarvedOpen(g, carved)
    ensures OnlyCarvedOpen(r, carved + [Edge(cur, d)])
  {
    var carved' := carved + [Edge(cur, d)];
    forall p, e | r.Contains(p) && r.Open(p, e)
      ensures Edge(p, e) in carved' || Edge(Step(p, e), Opposite(e)) in carved'
    {
      if g.Open(p, e) {
        assert Edge(p, e) in carved || Edge(Step(p, e), Opposite(e)) in carved;
      } else if p == cur && e == d {
        assert carved'[|carved|] == Edge(p, e);
      } else {
        StepBack(cur, d);
        assert carved'[|carved|] == Edge(Step(p, e), Opposite(e));
      }
    }
  }

  lemma ReachesAfterPush(g: Grid, r: Grid, seen: set<Pos>, paths: map<Pos, seq<Dir>>, cur: Pos, d: Dir)
    requires g.Valid() && r.Valid() && Carving(g, r, cur, d)
    requires Reaches(g, seen, paths) && cur in seen
    ensures Reaches(r, seen + {Step(cur, d)}, paths[Step(cur, d) := paths[cur] + [d]])
  {
    var next := Step(cur, d);
    var paths' := paths[next := paths[cur] + [d]];
    assert forall q, e :: g.Contains(q) && g.Open(q, e) ==> r.Open(q, e);
    forall p | p in seen + {next} ensures p in paths' && r.Walk(Origin, paths'[p]) == Some(p)
    {
      if p == next {
        WalkSurvivesOpening(g, r, Origin, paths[cur]);
        WalkExtend(r, Origin, paths[cur], cur, d);
      } else {
        WalkSurvivesOpening(g, r, Origin, paths[p]);
      }
    }
  }

  lemma PopKeepsInvariants(g: Grid, stack: seq<Pos>, seen: set<Pos>)
    requires g.Valid() && Tracks(g, seen) && Frontier(g, stack, seen)
    requires |stack| > 0 && |Candidates(g, stack[|stack| - 1])| == 0
    ensures Frontier(g, stack[..|stack| - 1], seen)
  {
    var top := stack[|stack| - 1];
    var rest := stack[..|stack| - 1];
    assert stack == rest + [top];
    forall p, e | p in seen && p !in rest && g.Contains(Step(p, e))
      ensures Step(p, e) in seen
    {
      if p == top {
        assert e !in Candidates(g, top);
      } else {
        assert p !in stack;
      }
    }
  }

  // ---------------------------------------------------------------------------
  // What the loop's end means

  /** Once the stack is empty every cell is visited, there are `w * h - 1`
      carvings, and the open walls form a connected, symmetric, closed maze. */
  lemma CarvingComplete(g: Grid, carved: seq<Edge>, seen: set<Pos>, entry: map<Pos, nat>,
                         paths: map<Pos, seq<Dir>>)
    requires g.Valid() && Tracks(g, seen) && Frontier(g, [], seen)
    requires Tree(g, carved, seen, entry) && Reaches(g, seen, paths)
    ensures forall p :: g.Contains(p) ==> g.At(p).x == p.x && g.At(p).y == p.y && g.At(p).visited
    ensures |carved| == g.width * g.height - 1
    ensures Symmetric(g) && BoundaryClosed(g)
    ensures forall i :: 0 <= i < |carved| ==>
      && g.Contains(carved[i].from) && g.Contains(carved[i].To()) && carved[i].To() != Origin
      && g.Open(carved[i].from, carved[i].dir) && g.Open(carved[i].To(), Opposite(carved[i].dir))
    ensures EntersOnce(carved) && Grows(carved) && OnlyCarvedOpen(g, carved)
    ensures forall p :: g.Contains(p) ==> Reachable(g, p)
  {
    forall i | 0 <= i < |carved| && carved[i].from != Origin
      ensures exists j :: 0 <= j < i && carved[j].To() == carved[i].from
    {
      var j := entry[carved[i].from];
      assert carved[j].To() == carved[i].from;
    }
    EveryCellReached(g, seen);
    assert seen == AllCells(g.width, g.height);
    CellCount(g.width, g.height);
    TreeIsSymmetricAndClosed(g, carved, seen);
    forall i | 0 <= i < |carved|
      ensures && g.Contains(carved[i].from) && g.Contains(carved[i].To()) && carved[i].To() != Origin
              && g.Open(carved[i].from, carved[i].dir) && g.Open(carved[i].To(), Opposite(carved[i].dir))
    {
      assert Joins(g, carved[i], seen);
    }
    forall p | g.Contains(p) ensures Reachable(g, p)
    {
      assert g.Walk(Origin, paths[p]) == Some(p);
    }
  }

  /** A set that holds the origin and every on-grid neighbour of its members
      holds every cell. */
  lemma EveryCellReached(g: Grid, seen: set<Pos>)
    requires g.Valid() && Origin in seen
    requires forall p, d :: p in seen && g.Contains(Step(p, d)) ==> Step(p, d) in seen
    ensures forall p :: g.Contains(p) ==> p in seen
  {
    forall p | g.Contains(p) ensures p in seen
    {
      ReachedByStaircase(g, seen, p.x, p.y);
    }
  }

  lemma {:induction false} ReachedByStaircase(g: Grid, seen: set<Pos>, x: nat, y: nat)
    requires g.Valid() && Origin in seen
    requires forall p, d :: p in seen && g.Contains(Step(p, d)) ==> Step(p, d) in seen
    requires g.Contains(Pos(x, y))
    ensures Pos(x, y) in seen
    decreases x + y
  {
    if x > 0 {
      ReachedByStaircase(g, seen, x - 1, y);
      assert Step(Pos(x - 1, y), Right) == Pos(x, y);
    } else if y > 0 {
      ReachedByStaircase(g, seen, x, y - 1);
      assert Step(Pos(x, y - 1), Bottom) == Pos(x, y);
    }
  }

  function Row(w: nat, y: int): (s: set<Pos>)
    ensures forall p :: p in s <==> 0 <= p.x < w && p.y == y
  {
    set x | 0 <= x < w :: Pos(x, y)
  }

  lemma {:induction false} RowCount(w: nat, y: int)
    ensures |Row(w, y)| == w
  {
    if w > 0 {
      RowCount(w - 1, y);
      assert Row(w, y) == Row(w - 1, y) + {Pos(w - 1, y)};
    } else {
      assert Row(w, y) == {};
    }
  }

  /** A `w` by `h` grid has `w * h` cells. */
  lemma {:induction false} CellCount(w: nat, h: nat)
    ensures |AllCells(w, h)| == w * h
  {
    if h > 0 {
      CellCount(w, h - 1);
      RowCount(w, h - 1);
      var upper, row := AllCells(w, h - 1), Row(w, h - 1);
      SplitLastRow(w, h);
      assert |upper + row| == |upper| + |row|;
      MulStep(w, h);
    } else {
      assert AllCells(w, h) == {};
    }
  }

  lemma SplitLastRow(w: nat, h: nat)
    requires h > 0
    ensures AllCells(w, h) == AllCells(w, h - 1) + Row(w, h - 1)
    ensures AllCells(w, h - 1) !! Row(w, h - 1)
  {
    var upper, row := AllCells(w, h - 1), Row(w, h - 1);
    forall p | p in AllCells(w, h) ensures p in upper + row
    {
    }
    forall p | p in upper + row ensures p in AllCells(w, h)
    {
    }
    forall p | p in upper ensures p !in row
    {
    }
  }

  lemma MulStep(w: nat, h: nat)
    requires h > 0
    ensures w * (h - 1) + w == w * h
  {
  }

  /** When the open walls are exactly the carvings, walls agree on both sides
      and none on the outer edge is down. */
  lemma TreeIsSymmetricAndClosed(g: Grid, carved: seq<Edge>, seen: set<Pos>)
    requires g.Valid() && AllJoin(g, carved, seen) && OnlyCarvedOpen(g, carved)
    ensures Symmetric(g) && BoundaryClosed(g)
  {
    forall p, d | g.Contains(p) && g.Open(p, d)
      ensures g.Contains(Step(p, d)) && g.Open(Step(p, d), Opposite(d))
    {
      StepBack(p, d);
      if Edge(p, d) in carved {
        var i :| 0 <= i < |carved| && carved[i] == Edge(p, d);
        assert Joins(g, carved[i], seen);
      } else {
        var i :| 0 <= i < |carved| && carved[i] == Edge(Step(p, d), Opposite(d));
        assert Joins(g, carved[i], seen);
      }
    }
    forall p, d | g.Contains(p) && g.Contains(Step(p, d)) && g.Open(Step(p, d), Opposite(d))
      ensures g.Open(p, d)
    {
      StepBack(p, d);
      var q := Step(p, d);
      assert g.Contains(Step(q, Opposite(d))) && g.Open(Step(q, Opposite(d)), Opposite(Opposite(d)));
    }
  }
}

=== FILE: maze_session.dfy ===
/** The maze screen's session: difficulty, the current grid, the player and
    the goal, the won flag, the elapsed-seconds clock and its interval.  Key
    presses move the player through open walls; after every change the win
    check stops the clock and awards points once. */
module MazeSession {
  import opened Optional
  import opened Scoring
  import opened MazeGrid
  import MazeGen

  datatype Difficulty = Easy | Hard

  datatype Key = ArrowUp | ArrowRight | ArrowDown | ArrowLeft | OtherKey

  /** One thing that can happen to a running screen: a key press, or one tick
      of the one-second interval. */
  datatype Event = Press(key: Key) | Tick

  /** `ticking` says whether the one-second interval is live. */
  datatype Session = Session(
    difficulty: Difficulty,
    width: nat,
    height: nat,
    grid: Grid,
    player: Pos,
    goal: Pos,
    won: bool,
    elapsed: nat,
    running: bool,
    ticking: bool)

  /** Width and height of the grid a difficulty asks for. */
  function SideFor(d: Difficulty): nat
  {
    if d == Easy then 10 else 20
  }

  /** Points awarded for solving a maze of a difficulty. */
  function PointsFor(d: Difficulty): int
  {
    if d == Easy then 2 else 5
  }

  /** The direction an arrow key asks for; other keys ask for none. */
  function DirOf(k: Key): Option<Dir>
  {
    match k
    case ArrowUp => Some(Top)
    case ArrowRight => Some(Right)
    case ArrowDown => Some(Bottom)
    case ArrowLeft => Some(Left)
    case OtherKey => None
  }

  /** The key that asks for a direction. */
  function KeyFor(d: Dir): (k: Key)
    ensures DirOf(k) == Some(d)
  {
    match d
    case Top => ArrowUp
    case Right => ArrowRight
    case Bottom => ArrowDown
    case Left => ArrowLeft
  }

  /** The screen before its first maze: 15 by 15, no grid, clock stopped. */
  function Initial(): (r: Session)
    ensures r.difficulty == Easy && r.width == 15 && r.height == 15
    ensures !r.won && !r.running && !r.ticking && r.elapsed == 0
    ensures forall k :: HandleKey(r, k) == r && WinCheck(r) == Transition(r, [])
    ensures TickClock(r) == r
  {
    Session(Easy, 15, 15, Grid(0, 0, []), Origin, Origin, false, 0, false, false)
  }

  /** A session in play or finished: its grid is a `width` by `height` maze with
      no opening on the outer edge, player and goal are on it, won and running
      are opposite, the interval runs exactly while the game runs, and a running
      game has not yet reached the goal (the win check has seen every move). */
  ghost predicate Consistent(s: Session)
  {
    && s.grid.Valid() && s.grid.width == s.width && s.grid.height == s.height
    && BoundaryClosed(s.grid)
    && s.grid.Contains(s.player) && s.grid.Contains(s.goal)
    && s.won == !s.running && s.ticking == s.running
    && (s.running ==> s.player != s.goal)
  }

  /** Starts a maze of the session's difficulty (the `generateMaze` callback):
      the old interval is cleared, the grid is carved afresh, the player is put
      on the top-left cell and the goal on the bottom-right one, and a new clock
      starts from zero. */
  method NewSession(s: Session, choices: seq<nat>) returns (t: Session)
    ensures t.difficulty == s.difficulty
    ensures t.width == SideFor(s.difficulty) && t.height == SideFor(s.difficulty)
    ensures t.player == Origin && t.goal == Pos(t.width - 1, t.height - 1)
    ensures !t.won && t.running && t.ticking && t.elapsed == 0
    ensures Consistent(t)
    ensures Symmetric(t.grid)
    ensures forall p :: t.grid.Contains(p) ==> Reachable(t.grid, p)
  {
    var side := SideFor(s.difficulty);
    var g, carved := MazeGen.Generate(side, side, choices);
    t := Session(s.difficulty, side, side, g, Origin, Pos(side - 1, side - 1), false, 0, true, true);
  }

  /** Choosing a difficulty starts a new maze only when it differs from the
      current one (setting the same value re-renders nothing). */
  method SelectDifficulty(s: Session, d: Difficulty, choices: seq<nat>) returns (t: Session)
    ensures d == s.difficulty ==> t == s
    ensures d != s.difficulty ==>
      && t.difficulty == d && t.width == SideFor(d) && t.height == SideFor(d)
      && t.player == Origin && t.goal == Pos(t.width - 1, t.height - 1)
      && !t.won && t.running && t.elapsed == 0 && Consistent(t)
      && Symmetric(t.grid) && forall p :: t.grid.Contains(p) ==> Reachable(t.grid, p)
  {
    if d == s.difficulty {
      t := s;
    } else {
      t := NewSession(s.(difficulty := d), choices);
    }
  }

  /** The key handler: ignored once won or when the player's cell is missing
      from the grid; otherwise an arrow moves one cell unless the current
      cell's wall in that direction is up. */
  function HandleKey(s: Session, k: Key): Session
  {
    if s.won then s
    else
      match s.grid.Lookup(s.player)
      case None => s
      case Some(cell) =>
        match DirOf(k)
        case None => s
        case Some(d) => if cell.walls.Has(d) then s else s.(player := Step(s.player, d))
  }

  /** The win check that runs after every change: on the goal while running,
      the game is won, stops running, its interval is cleared and the
      difficulty's points are awarded. */
  function WinCheck(s: Session): Transition<Session>
  {
    if s.player == s.goal && s.running then
      Transition(s.(won := true, running := false, ticking := false), [PointsFor(s.difficulty)])
    else
      Transition(s, [])
  }

  /** One tick of the interval adds a second while it is live. */
  function TickClock(s: Session): Session
  {
    if s.ticking then s.(elapsed := s.elapsed + 1) else s
  }

  function Apply(s: Session, e: Event): Transition<Session>
  {
    match e
    case Press(k) => WinCheck(HandleKey(s, k))
    case Tick => Transition(TickClock(s), [])
  }

  /** The state after a sequence of events, with every award made on the way. */
  function Run(s: Session, events: seq<Event>): Transition<Session>
    decreases |events|
  {
    if |events| == 0 then Transition(s, [])
    else
      var t := Apply(s, events[0]);
      var rest := Run(t.state, events[1..]);
      Transition(rest.state, t.awards + rest.awards)
  }

  /** The presses that follow a sequence of moves. */
  function Presses(path: seq<Dir>): (es: seq<Event>)
    ensures |es| == |path|
    ensures forall i :: 0 <= i < |path| ==> es[i] == Press(KeyFor(path[i]))
  {
    if |path| == 0 then [] else [Press(KeyFor(path[0]))] + Presses(path[1..])
  }

  // ---------------------------------------------------------------------------
  // Properties

  /** A key press changes nothing but the player's position, and that only by
      one cell in the key's direction through a wall that is down, onto the
      grid; a press on a won game, a press of another key, or one against a
      wall changes nothing. */
  lemma KeyPressMoves(s: Session, k: Key)
    requires Consistent(s)
    ensures var t := HandleKey(s, k);
      && t == s.(player := t.player)
      && t.grid.Contains(t.player)
      && (s.won || DirOf(k).None? ==> t == s)
      && (!s.won && DirOf(k).Some? ==>
            (s.grid.Open(s.player, DirOf(k).value) <==> t.player == Step(s.player, DirOf(k).value)))
      && (!s.won && DirOf(k).Some? && !s.grid.Open(s.player, DirOf(k).value) ==> t == s)
  {
    if !s.won && DirOf(k).Some? {
      StepBack(s.player, DirOf(k).value);
    }
  }

  /** Every event keeps a consistent session consistent, and the win check
      awards the difficulty's points exactly when the game goes from running
      to won.  A game not yet won is won by a press exactly when that press
      puts the player on the goal; a press leaves the player where the key
      handler put it and the clock where it was, and a tick adds one second
      while the game runs and changes nothing else. */
  lemma ApplyKeepsConsistent(s: Session, e: Event)
    requires Consistent(s)
    ensures var t := Apply(s, e);
      && Consistent(t.state)
      && t.state.grid == s.grid && t.state.goal == s.goal && t.state.difficulty == s.difficulty
      && (t.awards == [] || t.awards == [PointsFor(s.difficulty)])
      && (t.awards != [] <==> !s.won && t.state.won)
      && (s.won ==> t.state == s)
      && (!s.won ==> (t.state.won <==> e.Press? && HandleKey(s, e.key).player == s.goal))
      && (e.Press? ==> t.state.player == HandleKey(s, e.key).player && t.state.elapsed == s.elapsed)
      && (e.Tick? ==> t.state == s.(elapsed := s.elapsed + if s.running then 1 else 0))
      && s.elapsed <= t.state.elapsed
  {
    if e.Press? {
      KeyPressMoves(s, e.key);
    }
  }

  /** Over any run from a consistent session the clock never goes back, a
      won game stays exactly as it is, and points are awarded at most once:
      once if and only if the run wins the game, and then the difficulty's
      points. */
  lemma {:induction false} AwardedAtMostOnce(s: Session, events: seq<Event>)
    requires Consistent(s)
    ensures var t := Run(s, events);
      && Consistent(t.state)
      && s.elapsed <= t.state.elapsed
      && (s.won ==> t.state == s && t.awards == [])
      && (t.awards == [] || t.awards == [PointsFor(s.difficulty)])
      && (t.awards != [] <==> !s.won && t.state.won)
    decreases |events|
  {
    if |events| > 0 {
      ApplyKeepsConsistent(s, events[0]);
      AwardedAtMostOnce(Apply(s, events[0]).state, events[1..]);
    }
  }

  /** Pressing the keys of a walk through open walls that ends on the goal
      wins a running game. */
  lemma {:induction false} FollowingAPathWins(s: Session, path: seq<Dir>)
    requires Consistent(s) && s.grid.Walk(s.player, path) == Some(s.goal)
    ensures Run(s, Presses(path)).state.won
    decreases |path|
  {
    if |path| == 0 {
    } else {
      var e := Presses(path)[0];
      assert e == Press(KeyFor(path[0]));
      var t := Apply(s, e);
      ApplyKeepsConsistent(s, e);
      assert Presses(path)[1..] == Presses(path[1..]);
      if s.won {
        AwardedAtMostOnce(t.state, Presses(path[1..]));
      } else {
        assert HandleKey(s, KeyFor(path[0])).player == Step(s.player, path[0]);
        FollowingAPathWins(t.state, path[1..]);
      }
    }
  }

  /** Every maze a session starts can be solved: some sequence of arrow keys
      takes the player to the goal, wins the game and awards the difficulty's
      points exactly once. */
  lemma NewMazeIsSolvable(t: Session)
    requires Consistent(t) && !t.won && t.player == Origin
    requires forall p :: t.grid.Contains(p) ==> Reachable(t.grid, p)
    ensures exists keys :: Run(t, keys).state.won && Run(t, keys).awards == [PointsFor(t.difficulty)]
  {
    assert Reachable(t.grid, t.goal);
    var path :| t.grid.Walk(Origin, path) == Some(t.goal);
    FollowingAPathWins(t, path);
    AwardedAtMostOnce(t, Presses(path));
  }
}

=== FILE: memory_matrix.dfy ===
/** The memory-matrix game: a square grid flashes a pattern of distinct
    cells, the player clicks them back, and each cleared level grows the grid
    and the pattern.  Random cell indices are an input: a sequence of draws,
    each draw `d` standing for the index `d % total` that
    `Math.floor(Math.random() * total)` produced. */
module MemoryMatrix {
  import opened Optional
  import opened Scoring

  datatype Phase = Idle | Showing | Playing | Result

  datatype Memory = Memory(
    gridSize: int,
    active: seq<int>,
    selection: seq<int>,
    phase: Phase,
    level: int,
    sessionScore: int)

  /** Side of the grid at a level: one more every three levels.  For a
      positive divisor Dafny's `/` rounds down, as `Math.floor` does. */
  function GridSizeFor(level: int): int
  {
    3 + (level - 1) / 3
  }

  /** Number of cells to remember at a level: one more every two levels. */
  function TileCountFor(level: int): int
  {
    3 + level / 2
  }

  /** Points added to the global score for each cleared level. */
  const LevelPoints := 5

  predicate Distinct(s: seq<int>)
  {
    forall i, j :: 0 <= i < j < |s| ==> s[i] != s[j]
  }

  predicate Below(s: seq<int>, total: int)
  {
    forall i :: 0 <= i < |s| ==> 0 <= s[i] < total
  }

  /** The screen before the first game: level 1, no score, waiting for the
      start button; clicks on it are ignored. */
  function Initial(): (r: Memory)
    ensures Consistent(r) && r.level == 1 && r.sessionScore == 0 && r.phase == Idle
    ensures forall index :: CellClick(r, index) == Transition(r, [])
  {
    Memory(3, [], [], Idle, 1, 0)
  }

  /** The cell indices the draws stand for. */
  function Drawn(draws: seq<nat>, total: nat): set<int>
    requires total > 0
    decreases |draws|
  {
    if |draws| == 0 then {} else {draws[0] % total} + Drawn(draws[1..], total)
  }

  /** The pattern loop: keeps drawing, adds each new index to the pattern in
      the order drawn and skips repeats, until the pattern has `count` cells;
      `None` when the draws run out first. */
  function Collect(draws: seq<nat>, total: nat, count: nat, acc: seq<int>): (r: Option<seq<int>>)
    requires total > 0
    ensures Distinct(acc) && Below(acc, total) && |acc| <= count && r.Some? ==>
      && |r.value| == count && Distinct(r.value) && Below(r.value, total)
    ensures r.Some? ==> |acc| <= |r.value| && r.value[..|acc|] == acc
    ensures r.Some? ==> forall i :: |acc| <= i < |r.value| ==> r.value[i] in Drawn(draws, total)
    ensures r.None? ==> |acc| < count
    decreases |draws|
  {
    if |acc| >= count then Some(acc)
    else if |draws| == 0 then None
    else
      var v := draws[0] % total;
      Collect(draws[1..], total, count, if v in acc then acc else acc + [v])
  }

  /** The pattern of a level drawn from `draws`. */
  function PatternFor(level: int, draws: seq<nat>): Option<seq<int>>
    requires level >= 1
  {
    var size := GridSizeFor(level);
    Collect(draws, size * size, TileCountFor(level), [])
  }

  /** `generatePattern` as built for `level`: the grid side and a fresh
      pattern for that level, shown with an empty selection. */
  function GeneratePattern(m: Memory, level: int, draws: seq<nat>): (r: Memory)
    requires level >= 1 && PatternFor(level, draws).Some?
    ensures r.gridSize == GridSizeFor(level) && |r.active| == TileCountFor(level)
    ensures Distinct(r.active) && Below(r.active, r.gridSize * r.gridSize)
    ensures r.phase == Showing && r.selection == []
    ensures r.level == m.level && r.sessionScore == m.sessionScore
  {
    var size := GridSizeFor(level);
    m.(gridSize := size, active := PatternFor(level, draws).value, phase := Showing, selection := [])
  }

  /** The reveal timeout ends the showing of the pattern. */
  function RevealElapsed(m: Memory): Memory
  {
    m.(phase := Playing)
  }

  /** The effect that starts the next level: in `Idle` above level 1 a new
      pattern is generated for the current level. */
  function NextLevel(m: Memory, draws: seq<nat>): Memory
    requires m.level >= 1
    requires m.phase == Idle && m.level > 1 ==> PatternFor(m.level, draws).Some?
  {
    if m.phase == Idle && m.level > 1 then GeneratePattern(m, m.level, draws) else m
  }

  /** `startGame` as written: level 1 and a zero score, then the delayed
      `generatePattern` runs; that callback is the one captured when the
      button was clicked, so it builds the pattern for the level the player
      had reached, not for level 1. */
  function StartGameAsWritten(m: Memory, draws: seq<nat>): (r: Memory)
    requires m.level >= 1 && PatternFor(m.level, draws).Some?
    ensures r.level == 1 && r.sessionScore == 0 && r.phase == Showing
    ensures r.gridSize == GridSizeFor(m.level) && |r.active| == TileCountFor(m.level)
  {
    GeneratePattern(m.(level := 1, sessionScore := 0, phase := Idle), m.level, draws)
  }

  /** `startGame` as intended: a new game at level 1 with a zero score and the
      pattern of level 1. */
  function StartGame(m: Memory, draws: seq<nat>): (r: Memory)
    requires PatternFor(1, draws).Some?
    ensures r.level == 1 && r.sessionScore == 0 && r.phase == Showing && r.selection == []
    ensures Consistent(r)
  {
    GeneratePattern(m.(level := 1, sessionScore := 0, phase := Idle), 1, draws)
  }

  /** A click on cell `index`: ignored unless playing or when the cell is
      already selected; otherwise the cell is selected, a cell outside the
      pattern ends the game, and the last pattern cell clears the level. */
  function CellClick(m: Memory, index: int): Transition<Memory>
  {
    if m.phase != Playing || index in m.selection then Transition(m, [])
    else
      var selection := m.selection + [index];
      if index !in m.active then
        Transition(m.(selection := selection, phase := Result), [])
      else if |selection| == |m.active| then
        Transition(m.(selection := selection, sessionScore := m.sessionScore + |m.active| * 10,
                      level := m.level + 1, phase := Idle), [LevelPoints])
      else
        Transition(m.(selection := selection), [])
  }

  // ---------------------------------------------------------------------------
  // Invariant

  /** Session score of a player who has reached `level` from level 1. */
  function ScoreBefore(level: int): int
    decreases level
  {
    if level <= 1 then 0 else ScoreBefore(level - 1) + TileCountFor(level - 1) * 10
  }

  /** The selection never repeats a cell and only its last cell may lie
      outside the pattern; while showing or playing every selected cell is in
      the pattern and some are still missing; outside `Idle` the grid and the
      pattern have the size of the current level; and the session score is
      what clearing every level below the current one earns. */
  ghost predicate Consistent(m: Memory)
  {
    && m.level >= 1
    && Distinct(m.active) && Below(m.active, m.gridSize * m.gridSize)
    && Distinct(m.selection)
    && (forall i :: 0 <= i < |m.selection| - 1 ==> m.selection[i] in m.active)
    && (m.phase == Showing || m.phase == Playing ==>
          |m.selection| < |m.active| && forall i :: 0 <= i < |m.selection| ==> m.selection[i] in m.active)
    && (m.phase != Idle ==> m.gridSize == GridSizeFor(m.level) && |m.active| == TileCountFor(m.level))
    && m.sessionScore == ScoreBefore(m.level)
  }

  // ---------------------------------------------------------------------------
  // Properties

  /** A level's pattern always fits on its grid. */
  lemma TilesFitGrid(level: int)
    requires level >= 1
    ensures 3 <= TileCountFor(level) <= GridSizeFor(level) * GridSizeFor(level)
  {
    var q := (level - 1) / 3;
    assert level <= 3 * q + 3;
    assert GridSizeFor(level) == 3 + q;
    assert TileCountFor(level) <= 3 + (3 * q + 3) / 2 <= 5 + 2 * q;
    assert (3 + q) * (3 + q) == 9 + 6 * q + q * q;
  }

  /** Drawing the indices `from, from + 1, ...` in turn completes a pattern
      of `count` cells when `count` of them fit below `total`. */
  lemma {:induction false} CountingDrawsComplete(total: nat, count: nat, from: nat)
    requires 0 < total && from <= count <= total
    ensures var acc := seq(from, i => i);
            var draws := seq(count - from, i => from + i);
            Collect(draws, total, count, acc) == Some(seq(count, i => i))
    decreases count - from
  {
    var acc := seq(from, i => i);
    var draws := seq(count - from, i => from + i);
    if from < count {
      assert draws[0] % total == from;
      assert from !in acc;
      assert acc + [from] == seq(from + 1, i => i);
      assert draws[1..] == seq(count - (from + 1), i => (from + 1) + i);
      CountingDrawsComplete(total, count, from + 1);
    }
  }

  /** Every level has draws that complete its pattern, so the pattern loop can
      always finish. */
  lemma PatternAlwaysPossible(level: int)
    requires level >= 1
    ensures exists draws :: PatternFor(level, draws).Some?
  {
    TilesFitGrid(level);
    var size := GridSizeFor(level);
    var count: nat := TileCountFor(level);
    CountingDrawsComplete(size * size, count, 0);
    var draws: seq<nat> := seq(count - 0, i => 0 + i);
    assert seq(0, i => i) == [];
    assert PatternFor(level, draws).Some?;
  }

  /** A click keeps the game consistent.  It selects nothing outside
      `Playing` or for a selected cell; otherwise it appends the cell to the
      selection, leaving the pattern and the grid alone, and ends the game for a cell outside the pattern; a pattern
      cell keeps the game playing unless it is the last missing one, which
      clears the level: it adds ten points per pattern cell to the session score,
      awards the global points once and moves to the next level. */
  lemma ClickKeepsConsistent(m: Memory, index: int)
    requires Consistent(m)
    ensures var t := CellClick(m, index);
      && Consistent(t.state)
      && (m.phase != Playing || index in m.selection ==> t == Transition(m, []))
      && (m.phase == Playing && index !in m.selection ==>
            && t.state.selection == m.selection + [index]
            && t.state.active == m.active && t.state.gridSize == m.gridSize
            && (index !in m.active <==> t.state.phase == Result)
            && (t.state.phase == Idle <==> index in m.active && |m.selection| + 1 == |m.active|)
            && (t.state.phase == Playing <==> index in m.active && |m.selection| + 1 < |m.active|)
            && (t.awards != [] <==> t.state.phase == Idle)
            && (t.state.phase != Idle ==> t.state.level == m.level && t.state.sessionScore == m.sessionScore)
            && (t.state.phase == Idle ==>
                  && t.awards == [LevelPoints] && t.state.level == m.level + 1
                  && t.state.sessionScore == m.sessionScore + TileCountFor(m.level) * 10))
  {
    var t := CellClick(m, index);
    if m.phase == Playing && index !in m.selection {
      var sel := m.selection + [index];
      assert forall i :: 0 <= i < |m.selection| ==> sel[i] == m.selection[i];
      assert Distinct(sel);
    }
  }

  /** The reveal timeout and the next-level effect keep a consistent game
      consistent.  The timeout turns a showing pattern into play and changes
      nothing else; the effect draws the current level's pattern in `Idle`
      above level 1, does nothing otherwise, and never touches the level or
      the score. */
  lemma ShowingAndNextLevelKeepConsistent(m: Memory, draws: seq<nat>)
    requires Consistent(m)
    requires m.phase == Idle && m.level > 1 ==> PatternFor(m.level, draws).Some?
    ensures m.phase == Showing ==> Consistent(RevealElapsed(m))
    ensures m.phase == Showing ==>
      RevealElapsed(m).phase == Playing && RevealElapsed(m).(phase := Showing) == m
    ensures Consistent(NextLevel(m, draws))
    ensures NextLevel(m, draws).level == m.level && NextLevel(m, draws).sessionScore == m.sessionScore
    ensures m.phase == Idle && m.level > 1 ==>
      var r := NextLevel(m, draws);
      && r.phase == Showing && r.selection == []
      && r.gridSize == GridSizeFor(m.level) && |r.active| == TileCountFor(m.level)
    ensures !(m.phase == Idle && m.level > 1) ==> NextLevel(m, draws) == m
  {
  }

  /** Restarting from any consistent game that had reached level 4 builds
      the pattern of level 4 (5 cells on a 4 by 4 grid) while the screen shows
      level 1, whose pattern is 3 cells on a 3 by 3 grid; such draws always
      exist. */
  lemma StaleLevelOnRestart(m: Memory, draws: seq<nat>)
    requires Consistent(m) && m.level == 4 && PatternFor(4, draws).Some?
    ensures var r := StartGameAsWritten(m, draws);
      && r.level == 1 && r.gridSize == 4 && |r.active| == 5
      && GridSizeFor(1) == 3 && TileCountFor(1) == 3
      && !Consistent(r)
    ensures exists ds :: PatternFor(4, ds).Some?
  {
    PatternAlwaysPossible(4);
  }
}

=== FILE: optional.dfy ===
/** An optional value: `None` where JavaScript has `undefined`, `null` or a
    loop that did not finish. */
module Optional {

  datatype Option<+T> = None | Some(value: T)
}

=== FILE: quiz.dfy ===
/** Logic shared by the aptitude quiz and the IQ test: a loaded list of
    questions, the index of the current one, the option locked in for it, the
    session score and whether the session has ended.  Fetching the questions
    is outside the model; a load receives the fetched list. */
module Quiz {
  import opened Optional

  /** A question as far as the session logic sees it: the index of its
      correct option.  Its text, options and explanation are only shown. */
  datatype Question = Question(correct: int)

  datatype Quiz = Quiz(
    questions: seq<Question>,
    index: nat,
    selected: Option<int>,
    score: nat,
    ended: bool)

  /** Number of questions whose answer has been locked in. */
  function Answered(q: Quiz): nat
  {
    q.index + (if q.selected.Some? then 1 else 0)
  }

  /** Whether option `option` is the right answer to the current question. */
  predicate IsCorrect(q: Quiz, option: int)
    requires q.index < |q.questions|
  {
    option == q.questions[q.index].correct
  }

  /** The index always names a question once any are loaded, and the score
      never exceeds the number of answers locked in, which never exceeds the
      number of questions. */
  ghost predicate Consistent(q: Quiz)
  {
    && (q.index < |q.questions| || (q.questions == [] && q.index == 0))
    && q.score <= Answered(q) <= |q.questions|
    && (q.questions == [] ==> q.selected == None)
  }

  /** Loading a session: the fetched questions, the first of them current,
      nothing selected, a zero score and the session running. */
  function Load(questions: seq<Question>): (r: Quiz)
    ensures Consistent(r) && Answered(r) == 0 && r.score == 0 && !r.ended
    ensures r.questions == questions
  {
    Quiz(questions, 0, None, 0, false)
  }

  /** An option click: once an option is locked in further clicks change
      nothing; otherwise the option is locked in and a correct one adds 1 to
      the score. */
  function Answer(q: Quiz, option: int): (r: Quiz)
    requires q.index < |q.questions|
    ensures q.selected.Some? ==> r == q
    ensures q.selected.None? ==> r.selected == Some(option) && Answered(r) == Answered(q) + 1
    ensures r.score == q.score + (if q.selected.None? && IsCorrect(q, option) then 1 else 0)
    ensures r.questions == q.questions && r.index == q.index && r.ended == q.ended
  {
    if q.selected.Some? then q
    else q.(selected := Some(option),
            score := if option == q.questions[q.index].correct then q.score + 1 else q.score)
  }

  /** The "next" button: before the last question the next one becomes
      current with nothing selected; at the last question the session ends. */
  function Advance(q: Quiz): (r: Quiz)
    ensures q.index + 1 < |q.questions| ==> r.ended == q.ended && r.index == q.index + 1 && r.selected == None
    ensures q.index + 1 >= |q.questions| ==> r.ended && r.index == q.index && r.selected == q.selected
    ensures r.questions == q.questions && r.score == q.score
  {
    if q.index < |q.questions| - 1 then q.(index := q.index + 1, selected := None)
    else q.(ended := true)
  }

  /** Answering and advancing keep a session consistent when the "next"
      button is pressed only with an answer locked in, as the page allows. */
  lemma {:induction false} StepsKeepConsistent(q: Quiz, option: int)
    requires Consistent(q)
    ensures q.index < |q.questions| ==> Consistent(Answer(q, option))
    ensures q.selected.Some? ==> Consistent(Advance(q))
    ensures q.selected.Some? ==> Advance(q).index < |Advance(q).questions|
  {
    if q.selected.Some? {
      assert q.questions != [];
      var r := Advance(q);
      assert Answered(r) <= Answered(q);
    }
  }
}

=== FILE: scoring.dfy ===
/** The global score keeper (`addScore`) seen as an event log: every handler
    returns its new state together with the points it handed over, and the
    score is the running sum of those points. */
module Scoring {

  /** The new state of a screen and the `addScore` calls, in order, that
      the handler made on the way. */
  datatype Transition<+S> = Transition(state: S, awards: seq<int>)

  /** What the global score keeper adds up: it only ever sums awards. */
  function Sum(awards: seq<int>): int
  {
    if |awards| == 0 then 0 else Sum(awards[..|awards| - 1]) + awards[|awards| - 1]
  }

  lemma {:induction false} SumAppend(a: seq<int>, b: seq<int>)
    ensures Sum(a + b) == Sum(a) + Sum(b)
    decreases |b|
  {
    if |b| == 0 {
      assert a + b == a;
    } else {
      assert (a + b)[..|a + b| - 1] == a + b[..|b| - 1];
      SumAppend(a, b[..|b| - 1]);
    }
  }
}

=== FILE: text.dfy ===
/** Character classes shared by the display formatting and the course
    parser. */
module Text {

  /** A decimal digit, what `\d` matches in a JavaScript regular expression
      without the `u` flag. */
  predicate IsDigit(c: char)
  {
    '0' <= c <= '9'
  }
}

=== FILE: time_format.dfy ===
/** The clock display `formatTime`: minutes and seconds, each written in
    decimal and padded on the left with `0` to at least two characters,
    joined by a colon. */
module TimeFormat {
  import opened Optional
  import opened Text

  predicate AllDigits(s: string)
  {
    forall i :: 0 <= i < |s| ==> IsDigit(s[i])
  }

  function DigitChar(n: nat): (c: char)
    requires n < 10
    ensures IsDigit(c)
  {
    (48 + n) as char
  }

  function DigitValue(c: char): (n: nat)
    requires IsDigit(c)
    ensures n < 10
  {
    (c as int) - 48
  }

  /** `n.toString()` for a whole number: its decimal digits, no leading zero. */
  function Decimal(n: nat): (s: string)
    ensures 1 <= |s| && AllDigits(s)
    ensures |s| > 1 ==> s[0] != '0'
  {
    if n < 10 then [DigitChar(n)] else Decimal(n / 10) + [DigitChar(n % 10)]
  }

  /** `s.padStart(2, '0')`. */
  function PadTwo(s: string): (r: string)
    ensures |s| < 2 ==> |r| == 2 && r[2 - |s|..] == s && forall i :: 0 <= i < 2 - |s| ==> r[i] == '0'
    ensures |s| >= 2 ==> r == s
  {
    if |s| < 2 then seq(2 - |s|, _ => '0') + s else s
  }

  /** `formatTime(secs)`: whole minutes, a colon, the remaining seconds. */
  function FormatTime(secs: nat): string
  {
    PadTwo(Decimal(secs / 60)) + ":" + PadTwo(Decimal(secs % 60))
  }

  // ---------------------------------------------------------------------------
  // Reading a display back

  /** The number a string of decimal digits denotes, leading zeros allowed. */
  function Value(s: string): nat
    requires AllDigits(s)
  {
    if |s| == 0 then 0 else Value(s[..|s| - 1]) * 10 + DigitValue(s[|s| - 1])
  }

  function IndexOf(s: string, c: char): (r: Option<nat>)
    ensures r.Some? ==> r.value < |s| && s[r.value] == c && forall i :: 0 <= i < r.value ==> s[i] != c
    ensures r.None? ==> forall i :: 0 <= i < |s| ==> s[i] != c
  {
    if |s| == 0 then None
    else if s[0] == c then Some(0)
    else match IndexOf(s[1..], c)
      case None => None
      case Some(i) => Some(i + 1)
  }

  /** Reads `mm:ss` back as a number of seconds; `None` unless both parts are
      non-empty digit strings and the seconds are below 60. */
  function ParseTime(s: string): Option<nat>
  {
    match IndexOf(s, ':')
    case None => None
    case Some(i) =>
      var m, sec := s[..i], s[i + 1..];
      if |m| > 0 && |sec| > 0 && AllDigits(m) && AllDigits(sec) && Value(sec) < 60 then
        Some(Value(m) * 60 + Value(sec))
      else None
  }

  lemma {:induction false} ValueOfDecimal(n: nat)
    ensures Value(Decimal(n)) == n
  {
    if n >= 10 {
      var s := Decimal(n);
      assert s[..|s| - 1] == Decimal(n / 10);
      ValueOfDecimal(n / 10);
    }
  }

  lemma {:induction false} LeadingZero(s: string)
    requires AllDigits(s)
    ensures AllDigits("0" + s) && Value("0" + s) == Value(s)
    decreases |s|
  {
    if |s| > 0 {
      var z := "0" + s;
      assert z[..|z| - 1] == "0" + s[..|s| - 1];
      LeadingZero(s[..|s| - 1]);
    }
  }

  lemma ValueOfPadded(n: nat)
    ensures AllDigits(PadTwo(Decimal(n))) && Value(PadTwo(Decimal(n))) == Value(Decimal(n))
  {
    var s := Decimal(n);
    if |s| < 2 {
      assert PadTwo(s) == "0" + s;
      LeadingZero(s);
    }
  }

  /** Two digit strings joined by a colon read back as minutes and seconds. */
  lemma ParseJoined(m: string, sec: string)
    requires 0 < |m| && 0 < |sec| && AllDigits(m) && AllDigits(sec) && Value(sec) < 60
    ensures ParseTime(m + ":" + sec) == Some(Value(m) * 60 + Value(sec))
  {
    var s := m + ":" + sec;
    assert s[..|m|] == m;
    assert s[|m| + 1..] == sec;
    forall i | 0 <= i < |m|
      ensures s[i] != ':'
    {
      assert s[i] == m[i] && IsDigit(m[i]);
    }
    FirstOccurrence(s, ':', |m|);
  }

  /** A character found at `k` and nowhere before is found at `k`. */
  lemma FirstOccurrence(s: string, c: char, k: nat)
    requires k < |s| && s[k] == c && forall i :: 0 <= i < k ==> s[i] != c
    ensures IndexOf(s, c) == Some(k)
  {
  }

  /** The display reads back as the number of seconds it shows. */
  lemma FormatTimeRoundTrip(secs: nat)
    ensures ParseTime(FormatTime(secs)) == Some(secs)
  {
    var m, sec := PadTwo(Decimal(secs / 60)), PadTwo(Decimal(secs % 60));
    ValueOfPadded(secs / 60);
    ValueOfPadded(secs % 60);
    ValueOfDecimal(secs / 60);
    ValueOfDecimal(secs % 60);
    ParseJoined(m, sec);
  }

  /** Under 100 minutes the display is exactly five characters, `mm:ss`. */
  lemma FormatTimeWidth(secs: nat)
    requires secs < 6000
    ensures |FormatTime(secs)| == 5 && FormatTime(secs)[2] == ':'
  {
    DecimalWidth(secs / 60);
    DecimalWidth(secs % 60);
  }

  lemma DecimalWidth(n: nat)
    requires n < 100
    ensures |Decimal(n)| <= 2
  {
  }
}
